=== FILE: README.md ===
# Twitter REST client: OAuth 1.0 signing and call handling

A Dafny model of the core of `lib/twitter-client.php`, a small PHP client
for the Twitter REST API 1.1. The model covers:

- the percent-encoding of section 3.6 of RFC 5849;
- `serialize`, which post-processes `http_build_query` into that encoding;
- the parameter bag `TwitterOAuthParams` and its HMAC-SHA1 signing:
  - the signature base string of section 3.4.1 of RFC 5849;
  - the signing key of section 3.4.2;
  - the Authorization header of section 3.5.1;
- the `TwitterOAuthToken` constructor;
- the client state:
  - the consumer and access tokens, `has_auth`, `set_oauth` and `deauthorize`;
  - the per-path rate-limit registry and `last_call`;
- `sanitize_args`;
- the shaping of the signed GET or POST request in `rest_request`;
- the cache key and the error drain of `call`;
- the `last_rate_limit_*` accessors;
- the exception classes: `chuck`, the constructor and the status text table.

PHP strings are byte strings: `Bytes.Bytes` is a sequence of characters
below 256. A PHP array with string keys is `PhpArray.Pairs`, a sequence
of (key, value) pairs with distinct keys, in insertion order.

- `$a[k] = v` is `PhpArray.Put`: an existing key keeps its position, a new
  key is appended.
- `unset` is `PhpArray.Remove`.
- `ksort($args, SORT_STRING | SORT_ASC)` is `NaturalOrder.NaturalKSort`.
  The flags add up to 6, which is SORT_NATURAL, so keys are compared by
  PHP's natural order (`NaturalOrder.NatCompare`).
- The signing model sorts with `KeySort.KSort`, by the byte order of the
  raw keys (strcmp, `ByteOrder.Below`), the order SORT_STRING on its own
  would select. The two sorts agree on keys with no digit and no white
  space, which covers every `oauth_*` key (see "## Findings"). Like the
  code, the model sorts raw keys and encodes them afterwards; section
  3.4.1.3.2 of RFC 5849 sorts the encoded names, which gives the same
  order only when every key byte is unreserved.

The following are parameters of the model:

- HMAC-SHA1 and base64 (`OAuthParams.Crypto`);
- the clock reading and the nonce (`TwitterClient.Signer`);
- the HTTP transport;
- `json_decode`;
- md5 of the serialised arguments;
- `apc_fetch`.

A decoded response body is abstract: `TwitterClient.Data` holds its
`errors` member, and the rest is an uninterpreted type parameter.
Exceptions are values: `ApiErrors.ApiException`, and
`TwitterClient.Failure` in results. Warnings from `trigger_error` are
returned as a list.

Modules, one per file:

- `Wrappers`: Option and Result.
- `Bytes`: truthiness, strtoupper, trim, decimal printing and `(int)` reading.
- `ByteOrder`: strcmp order.
- `PhpArray`: ordered string-keyed arrays.
- `KeySort`: the byte-order key sort.
- `NaturalOrder`: strnatcmp and the natural-order ksort, and where they
  agree with byte order.
- `PercentEncoding`: rawurlencode, urlencode, the client's encoder, decoding.
- `QueryString`: `http_build_query`, `serialize`, a query parser.
- `OAuthToken`: the token class.
- `OAuthParams`: the parameter bag, signing and the header.
- `ApiErrors`: the exception classes.
- `TwitterClient`: the client.

## Behaviour the model takes from the code

- **POST requests.** `rest_request` puts the signed arguments of a POST
  into the body and sets no Authorization header
  (lib/twitter-client.php:343-349). `oauth_header` is called only from
  the OAuth token exchange, which is not modelled.
- **Header separator.** `oauth_header` joins its items with `",\n "`
  (lib/twitter-client.php:577).
- **When limits are recorded.** `rest_request` records the limits of
  every response it receives, before `call` looks at the status or the
  body (lib/twitter-client.php:351-358).
  - This includes error statuses, `raw()` calls, and bodies that then
    fail to decode.
  - Nothing is recorded for a cache hit (lib/twitter-client.php:234-237)
    or for a transport failure, which throws inside `http_request`.
  - A missing remaining or reset header casts to 0.
- **Allowance with no snapshot.** `last_rate_limit_data` falls back to
  `array('limit' => 0)`, so `last_rate_limit_allowance` returns 0 when
  nothing is known (lib/twitter-client.php:437-449). Remaining and reset
  return null (lib/twitter-client.php:451-467).
- **Body that is not an array.** The exception's message is
  `$http['error']` (lib/twitter-client.php:244-250), and `http_request`
  returns no `error` entry with a response. So the message is always the
  status text of the response status.
- **Method check.** `rest_request` signs any method and only tells GET
  from the rest (lib/twitter-client.php:339-348). `http_request` then
  refuses everything but `GET` and `POST` (lib/twitter-client.php:383-392).
  The base string upper-cases the method, but the dispatch compares it as
  given, so `"get"` is signed and then refused as `Unsupported method get`.
- **Cache lookup.** `call` looks in the cache before `rest_request`
  checks auth (lib/twitter-client.php:229-240 and 330-332). A cached GET
  is therefore answered even when the client is not authenticated.

## Model

| member | source | states |
|---|---|---|
| Bytes.ToUpper | lib/twitter-client.php:566 | strtoupper keeps the length, raises each ASCII lower-case letter by 32 and keeps every other byte |
| Bytes.Trim | lib/twitter-client.php:667 | trim() returns a contiguous slice of its input; only trimmable bytes lie before and after it, and neither end of the result is trimmable |
| Bytes.TrimPadded | lib/twitter-client.php:667 | a message padded by one whitespace byte on each side comes back without the padding |
| Bytes.DecimalRoundTrip | lib/twitter-client.php:561 | the '%u' digits of the timestamp read back to the number they print |
| Bytes.IntCastReadsDecimal | lib/twitter-client.php:354-356 | the (int) cast of a printed integer gives back that integer, negatives included |
| Bytes.IntToDecimal | lib/twitter-client.php:210 | `(string)` of an int is non-empty and starts with a minus sign exactly when the number is negative |
| Bytes.DecimalShape | lib/twitter-client.php:210 | after the optional minus sign, `(string)` of an int is a run of digits without a leading zero whose value is the magnitude |
| Bytes.IntCast | lib/twitter-client.php:354-356 | `(int)` of a string with no sign and no digit after its leading white space is 0, and a negative result needs a minus sign |
| Bytes.IntCastReadsDecimalThen | lib/twitter-client.php:256 | `(int)` of a printed integer followed by a byte that is not a digit, `.`, `e` or `E` reads that integer back |
| Bytes.LeadingDigitsAt | lib/twitter-client.php:231 | a digit run ended by a non-digit is exactly the run the `\d+` prefix match takes |
| ByteOrder.BelowIrreflexive | lib/twitter-client.php:542-543 | no key sorts below itself in byte order |
| ByteOrder.BelowTransitive | lib/twitter-client.php:542-543 | byte order is transitive |
| ByteOrder.BelowTotal | lib/twitter-client.php:542-543 | any two different keys are ordered one way or the other in byte order |
| ByteOrder.BelowAsymmetric | lib/twitter-client.php:542-543 | two keys are never each below the other in byte order |
| PhpArray.Get | lib/twitter-client.php:352 | a lookup finds the value stored under the key, and finds nothing exactly when no entry has the key |
| PhpArray.Put | lib/twitter-client.php:533 | assignment by key stores the value, leaves every other key's value alone, keeps an existing key in place and appends a new one |
| PhpArray.PutUnique | lib/twitter-client.php:560-562 | assignment by key keeps the keys distinct |
| PhpArray.Remove | lib/twitter-client.php:563 | unset removes the key, leaves every other key's value alone, adds nothing, and is a no-op for an absent key |
| PhpArray.RemoveUnique | lib/twitter-client.php:563 | unset keeps the keys distinct |
| PhpArray.PermutationSameEntries | lib/twitter-client.php:543 | a reordering of an array with distinct keys holds the same key/value entries |
| KeySort.KSort | lib/twitter-client.php:541-543 | the byte-order key sort returns a permutation of the pairs with keys strictly ascending in byte order |
| KeySort.AscendingExtensional | lib/twitter-client.php:541-543 | two key-ascending arrays with the same entries are the same sequence |
| KeySort.KSortOrderIndependent | lib/twitter-client.php:541-543 | the byte-order key sort of two arrays with the same entries gives the same sequence, whatever the insertion order |
| NaturalOrder.NatInsert | lib/twitter-client.php:542-543 | inserting one pair by natural order adds exactly that pair |
| NaturalOrder.NaturalKSort | lib/twitter-client.php:542-543 | ksort with the flags the client passes returns a permutation of the pairs |
| NaturalOrder.NatCompareOnPlain | lib/twitter-client.php:542-543 | on keys with no digit and no white space, the natural comparison is byte order, and only equal keys tie |
| NaturalOrder.NaturalKSortOnPlain | lib/twitter-client.php:542-543 | on arrays with distinct keys that have no digit and no white space, the natural-order ksort equals the byte-order sort |
| NaturalOrder.NaturalKSortOrderIndependentOnPlain | lib/twitter-client.php:542-543 | on such arrays the natural-order ksort does not depend on insertion order |
| NaturalOrder.NatCompareDigitRuns | lib/twitter-client.php:542-543 | digit runs compare by magnitude: `a10` compares above `a9` |
| NaturalOrder.NaturalSortDigitRuns | lib/twitter-client.php:542-543 | the natural-order ksort puts `a9` before `a10`, and the byte-order sort puts `a10` first |
| NaturalOrder.NaturalSortKeepsTies | lib/twitter-client.php:542-543 | `ab` and `a b` tie, and the natural-order ksort keeps either insertion order |
| PercentEncoding.EncodeIsRawUrlEncode | lib/twitter-client.php:521-523 | the client's `urlencode` equals rawurlencode on every input: its `%7E` to `~` replacement never fires |
| PercentEncoding.EncodeBytewise | lib/twitter-client.php:521-523 | encoding works byte by byte: unreserved bytes are kept and every other byte becomes `%XX` with upper-case hex |
| PercentEncoding.EncodeSpace | lib/twitter-client.php:521-523 | a space encodes as `%20` |
| PercentEncoding.EncodeWellEscaped | lib/twitter-client.php:521-523 | the output holds only unreserved bytes and upper-case escapes, never `%7E`, `+` or a space |
| PercentEncoding.EncodeIdentityIff | lib/twitter-client.php:521-523 | a string is left unchanged if and only if every byte is in `A-Z a-z 0-9 - . _ ~` |
| PercentEncoding.DecodeEncode | lib/twitter-client.php:521-523 | percent-decoding the encoder's output gives back the input |
| PercentEncoding.EncodeInjective | lib/twitter-client.php:521-523 | different strings never encode alike |
| QueryString.SerializeIsCanonical | lib/twitter-client.php:552-557 | serialize (`http_build_query` with `+` replaced by `%20` and `%7E` by `~`) gives the RFC 3986 query of the pairs: each `enc(key)=enc(value)`, joined by `&`, in array order |
| QueryString.SerializeRoundTrip | lib/twitter-client.php:552-557 | parsing and decoding serialize's output gives back the pairs, in order |
| OAuthToken.NewToken | lib/twitter-client.php:488-495 | the constructor refuses exactly the keys `""` and `"0"` with the fixed message, and otherwise keeps key and secret with an empty verifier |
| OAuthParams.New | lib/twitter-client.php:525-529 | the caller's arguments come first and unchanged; `oauth_version` reads `1.0` only when the caller gave none |
| OAuthParams.SetConsumer | lib/twitter-client.php:531-534 | only `oauth_consumer_key` changes among the arguments, and the consumer secret is kept for signing |
| OAuthParams.SetToken | lib/twitter-client.php:536-539 | only `oauth_token` changes among the arguments, and the token secret is kept for signing |
| OAuthParams.Normalize | lib/twitter-client.php:541-550 | normalize with the byte-order sort returns a permutation of the arguments with keys ascending in byte order |
| OAuthParams.NormalizeAsWritten | lib/twitter-client.php:541-550 | normalize as the flags select it, by natural order, keeps the arguments' entries and both secrets |
| OAuthParams.NormalizeAsWrittenOnPlainKeys | lib/twitter-client.php:541-550 | when no key has a digit or white space, the natural-order normalize equals the byte-order one |
| OAuthParams.NormalizeOrderIndependent | lib/twitter-client.php:541-557 | normalising by byte order then serialising gives one string for every insertion order of the same entries |
| OAuthParams.Prepare | lib/twitter-client.php:560-563 | before sorting, the signature method is HMAC-SHA1, timestamp and nonce are set, no signature is left, every other key reads as before, and the keys stay distinct |
| OAuthParams.EncodedOrderOnUnreserved | lib/twitter-client.php:541-556 | when every byte of two keys is unreserved, sorting the raw keys (541-543) and sorting their encodings (553-556) order them alike |
| OAuthParams.EncodedOrderDiffersOnReserved | lib/twitter-client.php:541-556 | `aZ` sorts before `a{` as raw keys, while their encodings `aZ` and `a%7B` sort the other way |
| OAuthParams.PreparedSortOnPlainKeys | lib/twitter-client.php:559-564 | when the caller's keys have no digit and no white space, the natural-order sort of the prepared arguments is the byte-order sort |
| OAuthParams.SignHmac | lib/twitter-client.php:559-570 | all entries but the last are a byte-order-ascending permutation of the prepared arguments; the last is `oauth_signature`, computed over the base string of those entries with the key from both secrets |
| OAuthParams.SignHmacAsWritten | lib/twitter-client.php:559-570 | sign_hmac with the code's natural-order sort: all entries but the last are a permutation of the prepared arguments, and the last is `oauth_signature` over the base string of those entries |
| OAuthParams.SignHmacAsWrittenOnPlainKeys | lib/twitter-client.php:559-570 | when no key has a digit or white space, signing with the natural-order sort gives exactly the byte-order result |
| OAuthParams.TokensKeepPlain | lib/twitter-client.php:525-539 | setting `oauth_version`, `oauth_consumer_key` and `oauth_token` adds no key with a digit or white space |
| OAuthParams.SignHmacFields | lib/twitter-client.php:559-570 | after signing, the method, timestamp, nonce and signature read as set and every other argument reads as before |
| OAuthParams.SignOrderIndependent | lib/twitter-client.php:559-570 | with the byte-order sort, the signed result depends on the arguments' entries, not their insertion order |
| OAuthParams.SigningKeyParts | lib/twitter-client.php:567 | the key splits at its only `&` into the two encoded secrets, which decode back; with an empty token secret it ends in `&` |
| OAuthParams.BaseStringParts | lib/twitter-client.php:565-566 | the base string splits at `&` into the upper-cased method, the encoded URL and the encoded query; these decode to the URL and to the sorted arguments |
| OAuthParams.OAuthHeader | lib/twitter-client.php:572-578 | the header starts with `OAuth `, and its items `enc(k)="enc(v)"`, joined by `",\n "`, read back to the arguments in order |
| ApiErrors.StatusText | lib/twitter-client.php:593-643 | the status text is never falsy and is the table's phrase for a listed status |
| ApiErrors.StatusTextDefault | lib/twitter-client.php:642 | for an unlisted status the text is `Status `, digits reading back to the status modulo 2^64, and ` from Twitter` |
| ApiErrors.NewException | lib/twitter-client.php:681-689 | the constructor keeps code and status, and replaces a falsy message by the status text |
| ApiErrors.PlainException | lib/twitter-client.php:681-689 | without a status argument the status and code are 0; a truthy message is kept and a falsy one becomes the status text for 0 |
| ApiErrors.Classify | lib/twitter-client.php:668-672 | 404 selects NotFound, 429 selects RateLimit, and every other status the base class |
| ApiErrors.Chuck | lib/twitter-client.php:665-674 | the class follows the status; a missing code becomes -1; the message is trimmed, and a missing one becomes the status text |
| ApiErrors.ChuckBlankMessage | lib/twitter-client.php:665-689 | a whitespace-only or `"0"` message also becomes the status text |
| ApiErrors.ChuckServerError | lib/twitter-client.php:665-689 | an error with no code or message at status 500 is a base exception with code -1 and message `Twitter server error` |
| ApiErrors.ChuckRateLimited | lib/twitter-client.php:665-674 | a padded message with code 88 at status 429 is a RateLimit exception with the trimmed message |
| TwitterClient.SanitizeValue | lib/twitter-client.php:196-211 | strings are kept, true becomes `true`, false and null become `false`, an integer becomes its `(string)` digits, which cast back to it, and only non-scalars are refused |
| TwitterClient.SanitizeArgs | lib/twitter-client.php:192-214 | the result is Ok exactly when no value is non-scalar; each key is then kept in place with its value sanitised; a refusal has code -1 and status 0 |
| TwitterClient.SanitizeReportsFirst | lib/twitter-client.php:206-208 | the exception names the type and key of the first non-scalar value |
| TwitterClient.SanitizeKeepsKeys | lib/twitter-client.php:192-214 | sanitising keeps the keys distinct |
| TwitterClient.SanitizeStrings | lib/twitter-client.php:197-199 | arguments that are all strings pass through unchanged |
| TwitterClient.Deauthorize | lib/twitter-client.php:111-114 | deauthorize sets the access token to null, so the client has no auth; the consumer, the cache settings and the recorded limits are unchanged |
| TwitterClient.DeauthorizedCacheKey | lib/twitter-client.php:111-114 | once deauthorised, the cache key has no account suffix; deauthorising twice is the same as once |
| TwitterClient.HasAuthTracksSecret | lib/twitter-client.php:103-105 | an access token built from a truthy key gives auth exactly when its secret is truthy, and no access token gives no auth |
| TwitterClient.SetOAuth | lib/twitter-client.php:125-132 | set_oauth throws exactly on a falsy consumer key, leaving the client deauthorised; an access token is set exactly when nothing is thrown and both the access key and secret are truthy, and then holds that key and secret; the client has auth afterwards if and only if the consumer key, access key and access secret are all truthy |
| TwitterClient.AccountId | lib/twitter-client.php:231-233 | the id is the digit run before the first `-` at the start of the token key, and there is none when no digits-then-dash prefix exists |
| TwitterClient.CacheKey | lib/twitter-client.php:229-233 | the key starts with namespace, path, `_` and the digest, and goes on exactly when the token key has an account id, with `_` and that id |
| TwitterClient.CacheKeySeparatesAccounts | lib/twitter-client.php:229-233 | access tokens with different account ids never share a cache key |
| TwitterClient.PrepareRequestOnPlainKeys | lib/twitter-client.php:328-348 | when no caller key has a digit or white space, a GET or POST request with auth and a consumer carries the arguments signed with the natural-order sort the code's flags select, after `?` for GET and in the body for POST |
| TwitterClient.PrepareRequest | lib/twitter-client.php:328-348 | without auth the result is status 401 and code 0; the request is prepared exactly when there is auth, a consumer and the method is GET or POST; GET carries the serialised signed arguments after `?`, POST in the body; other methods are refused |
| TwitterClient.SignedArgsReads | lib/twitter-client.php:339-342 | the signed arguments hold the consumer key, token, version, method, timestamp, nonce and signature, and every other argument as the caller gave it |
| TwitterClient.GetQueryReadsBack | lib/twitter-client.php:343-345 | the query of a signed GET parses back to the signed arguments |
| TwitterClient.RecordResponse | lib/twitter-client.php:351-358 | the path becomes the last call; with the limit header its snapshot is replaced by the cast header values; other paths keep theirs |
| TwitterClient.RestRequest | lib/twitter-client.php:328-360 | nothing is sent when preparation fails; a received response is returned and recorded whatever its status; a transport failure leaves the client unchanged and raises status 0 |
| TwitterClient.Raw | lib/twitter-client.php:280-283 | raw sanitises, then does rest_request; a non-scalar argument fails with code -1 before anything is sent |
| TwitterClient.WarningFormat | lib/twitter-client.php:256 | the warning is `Twitter error #`, then digits that `(int)` reads back to the code (0 when missing), then the untrimmed message in quotes after a space |
| TwitterClient.DrainErrors | lib/twitter-client.php:252-263 | the warnings are those of a prefix of real errors; then either the last entry is an error and is thrown, or an empty entry stops the loop and the entries after it are kept |
| TwitterClient.DrainAllErrors | lib/twitter-client.php:252-263 | when every entry is an error object, all but the last become warnings, in order, and the last is thrown |
| TwitterClient.DrainStopsAtEmpty | lib/twitter-client.php:253-262 | an empty entry ends the loop: earlier errors are warnings and the later ones stay in the data |
| TwitterClient.Call | lib/twitter-client.php:226-268 | a non-scalar argument fails before sending; when nothing is sent the client, warnings and cache are untouched and a success is a cache hit; something is stored only for a sent GET with caching on, under the call's cache key and TTL, holding the returned data |
| TwitterClient.CallRejectsNonScalar | lib/twitter-client.php:226-227 | call with a non-scalar argument fails with code -1 and sends nothing |
| TwitterClient.CallCacheHit | lib/twitter-client.php:229-237 | a cached GET is answered from the cache, sending nothing, even without auth |
| TwitterClient.CallNotAuthenticated | lib/twitter-client.php:330-332 | without a cache hit an unauthenticated call sends nothing and fails with `Twitter client not authenticated`, code 0, status 401 |
| TwitterClient.CallNotArray | lib/twitter-client.php:244-250 | a body that is not an array fails with code -1, the response status, its status text and its class; the limits are still recorded |
| TwitterClient.CallRaisesLastError | lib/twitter-client.php:252-263 | a list of error objects gives warnings for all but the last and throws the last with the response status; nothing is stored, and the limits are still recorded |
| TwitterClient.CallStopsAtEmpty | lib/twitter-client.php:252-267 | an empty entry after some errors ends the loop without throwing: the earlier errors become warnings, the data is returned with the later entries left in its errors, the limits are recorded, and the data is stored exactly when caching applies |
| TwitterClient.CallEmptyErrors | lib/twitter-client.php:252-267 | an empty errors list gives no warning; the data is returned as decoded and stored exactly when caching applies |
| TwitterClient.CallReturnsData | lib/twitter-client.php:264-267 | data without errors is returned as decoded and stored under the call's key exactly when caching applies |
| TwitterClient.Allowance | lib/twitter-client.php:437-449 | the allowance is the snapshot's limit, or 0 when no snapshot is known |
| TwitterClient.Remaining | lib/twitter-client.php:437-458 | remaining is null exactly when no snapshot is known |
| TwitterClient.Reset | lib/twitter-client.php:437-467 | reset is null exactly when no snapshot is known |
| TwitterClient.FreshKnowsNoLimits | lib/twitter-client.php:437-467 | a new client reports allowance 0 and null remaining and reset |
| TwitterClient.RecordedLimitsReadBack | lib/twitter-client.php:351-467 | after a response with the limit header, the accessors with no argument or with the path read back the header values |
| TwitterClient.RecordKeepsOtherEndpoints | lib/twitter-client.php:351-358 | recording one path leaves the accessors for every other path unchanged |
| TwitterClient.RateSnapshotExample | lib/twitter-client.php:352-357 | headers limit=15, remaining=14 give an allowance of 15 and 14 remaining for the path |

## Findings

| source | as written | input that shows it | evidently intended | confidence | as-written member | corrected member |
|---|---|---|---|---|---|---|
| lib/twitter-client.php:542-543 | `normalize` calls ksort with SORT_STRING and SORT_ASC or-ed together. The flags add up to 6, which is SORT_NATURAL, so keys are compared by strnatcmp: digit runs by magnitude, white space skipped, ties kept in insertion order | keys `a10` and `a9`: the code signs `a9` first, byte order puts `a10` first. Keys `ab` and `a b` tie, so their order follows insertion order | keys sorted by byte order of the raw keys (strcmp), the order SORT_STRING on its own would select | not executed; the sort is read from the flag values, and the receiving server's check is outside the code | NaturalOrder.NaturalSortDigitRuns | KeySort.KSort |

Every key the client itself adds (`oauth_*`) has no digit and no white
space. So the two orders give the same signature whenever the caller's
keys have none either (`OAuthParams.PreparedSortOnPlainKeys`,
`NaturalOrder.NaturalKSortOnPlain`). The signing model uses the byte-order
sort. `OAuthParams.NormalizeAsWritten` and `OAuthParams.SignHmacAsWritten`
are normalize and sign_hmac as written, and
`TwitterClient.PrepareRequestOnPlainKeys` carries the agreement up to the
prepared request.

## Left out

- ByteOrder.BelowIrreflexive: states a property of byte order, the corrected order. The code's ksort flags select natural order, which agrees with byte order only on keys with no digit and no white space (`NaturalOrder.NatCompareOnPlain`).
- ByteOrder.BelowTransitive: states a property of byte order, the corrected order. The code's ksort flags select natural order, which agrees with byte order only on keys with no digit and no white space (`NaturalOrder.NatCompareOnPlain`).
- ByteOrder.BelowTotal: states a property of byte order, the corrected order. The code's ksort flags select natural order, which agrees with byte order only on keys with no digit and no white space (`NaturalOrder.NatCompareOnPlain`).
- ByteOrder.BelowAsymmetric: states a property of byte order, the corrected order. The code's ksort flags select natural order, which agrees with byte order only on keys with no digit and no white space (`NaturalOrder.NatCompareOnPlain`).
- KeySort.KSort: the corrected byte-order sort, not the natural-order sort the flags select (see "## Findings"). The two agree on distinct keys with no digit and no white space (`NaturalOrder.NaturalKSortOnPlain`).
- KeySort.KSortOrderIndependent: holds for the byte-order sort. For the natural-order sort it holds only on keys with no digit and no white space (`NaturalOrder.NaturalKSortOrderIndependentOnPlain`); `NaturalOrder.NaturalSortKeepsTies` shows a pair of keys where it fails.
- OAuthParams.Normalize: sorts by byte order, the corrected sort; `OAuthParams.NormalizeAsWritten` is the code's natural-order sort, and `OAuthParams.NormalizeAsWrittenOnPlainKeys` shows the two agree on plain keys.
- OAuthParams.NormalizeOrderIndependent: stated for the byte-order normalize. For the code's sort it holds on keys with no digit and no white space only.
- OAuthParams.SignHmac: signs the byte-order sort of the prepared arguments. The code's sort gives the same arguments when the caller's keys have no digit and no white space (`OAuthParams.SignHmacAsWrittenOnPlainKeys`).
- KeySort.KSort: sorts the raw keys by byte order. Section 3.4.1.3.2 of RFC 5849 sorts the encoded names. The two orders agree only when every key byte is unreserved (`OAuthParams.EncodedOrderOnUnreserved`). `OAuthParams.EncodedOrderDiffersOnReserved` shows `aZ` before `a{` raw, but `a%7B` before `aZ` encoded. Neither the code nor the model sorts encoded names.
- KeySort.AscendingExtensional: stated for byte order. The code's natural order is not a total order, so two natural-order sorts of the same entries can differ (`NaturalOrder.NaturalSortKeepsTies`).
- TwitterClient.PrepareRequest: signs with the byte-order sort, the corrected one, and does not promise the natural-order request for every key. `TwitterClient.PrepareRequestOnPlainKeys` shows it carries the code's natural-order signed arguments whenever no caller key has a digit or white space. For other keys the two can sign different strings (see "## Findings").
- OAuthParams.SignOrderIndependent: stated for the byte-order sort. With the code's sort it holds on keys with no digit and no white space only.
- NaturalOrder.NaturalKSort: PHP's zend_sort is a hybrid insertion sort, stable from PHP 8.0. It is modelled as a stable insertion sort. Natural order is not a total order (`a b` and `ab` tie although they differ), so on large arrays with such keys zend_sort's result can differ from the model's. The model states no sortedness for this sort for the same reason.
- NaturalOrder.NatCompare: `strnatcmp_ex` is C code in PHP's runtime (ext/standard/strnatcmp.c), outside lib/twitter-client.php. NatCompare follows it with case folding off: white space and leading zeros skipped, digit runs compared by magnitude, fractional runs (a leading `0`) compared digit by digit.

- `http_request` (cURL, timeouts, the CA-bundle retry, the header regex) is I/O.
  - It is the `transport` parameter.
  - `Received` stands for a response with a non-zero status.
  - Header names arrive lower-cased.
- The APC store is an external cache.
  - `apc_fetch` is a parameter.
  - The entry passed to `apc_store` is returned in `CallOutcome.stored`.
- `oauth_exchange`, `get_oauth_request_token` and `get_oauth_access_token` are left out. They are a network round trip plus `parse_str` and SimpleXML parsing. The token's `user` field is only set there.
- `get_authorization_url` and `get_authentication_url` are left out. Each is a fixed URL plus one rawurlencode.
- `enable_cache`, `disable_cache`, `set_oauth_consumer`, `set_oauth_access` and `__sleep` are plain field setters.
  - The cache settings are a field of `TwitterClient.Client`.
  - `TwitterClient.WellFormed` records what `set_oauth` guarantees.
  - `PrepareRequest` still models the TypeError when a consumer is missing.
- HMAC-SHA1, base64, md5 of PHP `serialize`, and `json_decode` are left abstract. These are foreign library code.
- `time()` is an integer parameter printed as by `%u`. The `%f` nonce from `microtime(true)` is a string parameter. Floating point is not modelled.
- TwitterClient.SanitizeValue: float arguments and their `(string)` cast are not modelled (floating point).
- Integer array keys are not modelled; every key is a string.
- OAuthParams.Normalize: does not model the `sort()` of array-valued arguments. Sanitised arguments are always strings, so that branch never runs.
- Bytes.IntCast reads an optional sign and a digit run after leading whitespace. It does not model exponent forms or the saturation of out-of-range numbers. The headers it reads are decimal integers.
- ApiErrors.ErrorEntry: an error entry is a JSON object with an integer code and a string message. These cases are not modelled:
  - non-object entries;
  - an `errors` member that is not a list;
  - codes or messages of other types.
- `trigger_error` is not emitted. Warnings are returned as a list.
- Percent-encoding follows rawurlencode from PHP 5.3 on, which leaves `~` unencoded.
- TwitterClient.RateSnapshotExample: does not state the reset value 1700000000. Its decimal reading is covered in general by `Bytes.IntCastReadsDecimal`.
- lib/DatumboxAPI.php and lib/TwitterSentimentAnalysis.php are not part of this model. They are HTTP wrappers and orchestration around the client.

=== FILE: api_errors.dfy ===
/** TwitterApiException and its two subclasses, the HTTP status text table
    used when an error carries no message, and `chuck`, which turns one
    Twitter error object into the exception for the response status. */
module ApiErrors {
  import opened Wrappers
  import opened Bytes

  /** The exception class: the base class, or one of the subclasses for
      404 and 429. */
  datatype ErrorKind = Generic | NotFound | RateLimit

  datatype ApiException = ApiException(kind: ErrorKind, message: Bytes, code: int, status: int)

  /** The reason phrases the client knows, with Twitter-specific wording
      for 429, 500, 502 and 503. */
  function StatusPhrase(s: int): Option<Bytes>
  {
    if 100 <= s < 200 then InformationalPhrase(s)
    else if 200 <= s < 300 then SuccessPhrase(s)
    else if 300 <= s < 400 then RedirectionPhrase(s)
    else if 400 <= s < 500 then ClientErrorPhrase(s)
    else if 500 <= s < 600 then ServerErrorPhrase(s)
    else None
  }

  function InformationalPhrase(s: int): Option<Bytes>
  {
    match s
    case 100 => var p: Bytes := "Continue"; Some(p)
    case 101 => var p: Bytes := "Switching Protocols"; Some(p)
    case _ => None
  }

  function SuccessPhrase(s: int): Option<Bytes>
  {
    match s
    case 200 => var p: Bytes := "OK"; Some(p)
    case 201 => var p: Bytes := "Created"; Some(p)
    case 202 => var p: Bytes := "Accepted"; Some(p)
    case 203 => var p: Bytes := "Non-Authoritative Information"; Some(p)
    case 204 => var p: Bytes := "No Content"; Some(p)
    case 205 => var p: Bytes := "Reset Content"; Some(p)
    case 206 => var p: Bytes := "Partial Content"; Some(p)
    case _ => None
  }

  function RedirectionPhrase(s: int): Option<Bytes>
  {
    match s
    case 300 => var p: Bytes := "Multiple Choices"; Some(p)
    case 301 => var p: Bytes := "Moved Permanently"; Some(p)
    case 302 => var p: Bytes := "Found"; Some(p)
    case 303 => var p: Bytes := "See Other"; Some(p)
    case 304 => var p: Bytes := "Not Modified"; Some(p)
    case 305 => var p: Bytes := "Use Proxy"; Some(p)
    case 307 => var p: Bytes := "Temporary Redirect"; Some(p)
    case _ => None
  }

  /** The 4xx phrases, in two tables so that each one's literals are
      checked for bytes on their own. */
  function ClientErrorPhrase(s: int): Option<Bytes>
  {
    if s < 410 then EarlyClientErrorPhrase(s) else LateClientErrorPhrase(s)
  }

  function EarlyClientErrorPhrase(s: int): Option<Bytes>
  {
    match s
    case 400 => var p: Bytes := "Bad Request"; Some(p)
    case 401 => var p: Bytes := "Authorization Required"; Some(p)
    case 402 => var p: Bytes := "Payment Required"; Some(p)
    case 403 => var p: Bytes := "Forbidden"; Some(p)
    case 404 => var p: Bytes := "Not Found"; Some(p)
    case 405 => var p: Bytes := "Method Not Allowed"; Some(p)
    case 406 => var p: Bytes := "Not Acceptable"; Some(p)
    case 407 => var p: Bytes := "Proxy Authentication Required"; Some(p)
    case 408 => var p: Bytes := "Request Time-out"; Some(p)
    case 409 => var p: Bytes := "Conflict"; Some(p)
    case _ => None
  }

  function LateClientErrorPhrase(s: int): Option<Bytes>
  {
    match s
    case 410 => var p: Bytes := "Gone"; Some(p)
    case 411 => var p: Bytes := "Length Required"; Some(p)
    case 412 => var p: Bytes := "Precondition Failed"; Some(p)
    case 413 => var p: Bytes := "Request Entity Too Large"; Some(p)
    case 414 => var p: Bytes := "Request-URI Too Large"; Some(p)
    case 415 => var p: Bytes := "Unsupported Media Type"; Some(p)
    case 416 => var p: Bytes := "Requested range not satisfiable"; Some(p)
    case 417 => var p: Bytes := "Expectation Failed"; Some(p)
    case 429 => var p: Bytes := "Twitter API rate limit exceeded"; Some(p)
    case _ => None
  }

  function ServerErrorPhrase(s: int): Option<Bytes>
  {
    match s
    case 500 => var p: Bytes := "Twitter server error"; Some(p)
    case 501 => var p: Bytes := "Not Implemented"; Some(p)
    case 502 => var p: Bytes := "Twitter is not responding"; Some(p)
    case 503 => var p: Bytes := "Twitter is too busy to respond"; Some(p)
    case 504 => var p: Bytes := "Gateway Time-out"; Some(p)
    case 505 => var p: Bytes := "HTTP Version not supported"; Some(p)
    case _ => None
  }

  const StatusPrefix: Bytes := "Status "
  const StatusSuffix: Bytes := " from Twitter"

  /** _twitter_api_http_status_text: the table's phrase, else
      "Status N from Twitter" with N printed as by '%u'. Never falsy. */
  function StatusText(s: int): (r: Bytes)
    ensures Truthy(r)
    ensures StatusPhrase(s).Some? ==> r == StatusPhrase(s).value
  {
    match StatusPhrase(s)
    case Some(phrase) => phrase
    case None => StatusPrefix + NatToDecimal(U64(s)) + StatusSuffix
  }

  /** For a status outside the table, the text is the prefix, a run of
      digits that reads back as the status (modulo 2^64, as '%u' prints
      it), and the suffix. */
  lemma StatusTextDefault(s: int)
    requires StatusPhrase(s).None?
    ensures var r := StatusText(s);
      && |r| > |StatusPrefix| + |StatusSuffix|
      && r[..|StatusPrefix|] == StatusPrefix
      && r[|r| - |StatusSuffix|..] == StatusSuffix
      && AllDigits(r[|StatusPrefix|..|r| - |StatusSuffix|])
      && DigitsValue(r[|StatusPrefix|..|r| - |StatusSuffix|]) == U64(s)
  {
    var d := NatToDecimal(U64(s));
    var r := StatusText(s);
    assert r == StatusPrefix + d + StatusSuffix;
    assert r[|StatusPrefix|..|r| - |StatusSuffix|] == d;
    DecimalRoundTrip(U64(s));
  }

  /** The constructor with an explicit status: a falsy message is replaced
      by the status text. */
  function NewException(message: Bytes, code: int, status: int): (r: ApiException)
    ensures r.kind == Generic && r.code == code && r.status == status
    ensures Truthy(r.message)
    ensures Truthy(message) ==> r.message == message
    ensures !Truthy(message) ==> r.message == StatusText(status)
  {
    ApiException(Generic, if Truthy(message) then message else StatusText(status), code, status)
  }

  /** The constructor without a status: the status stays 0. */
  function PlainException(message: Bytes): (r: ApiException)
    ensures r.kind == Generic && r.code == 0 && r.status == 0
    ensures Truthy(message) ==> r.message == message
    ensures !Truthy(message) ==> r.message == StatusText(0)
    ensures Truthy(r.message)
  {
    NewException(message, 0, 0)
  }

  /** A decoded Twitter error object: its "code" and "message" when set
      and not null, and how many other keys it holds. PHP reads the object
      as false exactly when it has no keys at all. */
  datatype ErrorEntry = ErrorEntry(code: Option<int>, message: Option<Bytes>, otherKeys: nat)

  predicate EntryTruthy(e: ErrorEntry)
  {
    e.code.Some? || e.message.Some? || e.otherKeys > 0
  }

  function Classify(status: int): (k: ErrorKind)
    ensures k == NotFound <==> status == 404
    ensures k == RateLimit <==> status == 429
    ensures k == Generic <==> status != 404 && status != 429
  {
    if status == 404 then NotFound else if status == 429 then RateLimit else Generic
  }

  /** chuck: the class follows the status, a missing code becomes -1, the
      message is trimmed, and an empty one falls back to the status text. */
  function Chuck(err: ErrorEntry, status: int): (r: ApiException)
    ensures r.status == status
    ensures r.kind == NotFound <==> status == 404
    ensures r.kind == RateLimit <==> status == 429
    ensures r.code == if err.code.Some? then err.code.value else -1
    ensures Truthy(r.message)
    ensures err.message.Some? && Truthy(Trim(err.message.value)) ==> r.message == Trim(err.message.value)
    ensures err.message.None? ==> r.message == StatusText(status)
  {
    var message := if err.message.Some? then Trim(err.message.value) else [];
    NewException(message, err.code.GetOr(-1), status).(kind := Classify(status))
  }

  /** A whitespace-only or "0" message is as good as none. */
  lemma ChuckBlankMessage(err: ErrorEntry, status: int)
    requires err.message.Some? && !Truthy(Trim(err.message.value))
    ensures Chuck(err, status).message == StatusText(status)
  {
  }

  lemma ChuckServerError()
    ensures var t: Bytes := "Twitter server error";
      Chuck(ErrorEntry(None, None, 1), 500) == ApiException(Generic, t, -1, 500)
  {
    assert StatusPhrase(500) == ServerErrorPhrase(500);
  }

  lemma ChuckRateLimited()
    ensures var m: Bytes := " Slow down\n"; var t: Bytes := "Slow down";
      Chuck(ErrorEntry(Some(88), Some(m), 0), 429) == ApiException(RateLimit, t, 88, 429)
  {
    var t: Bytes := "Slow down";
    TrimPadded(' ', t, '\n');
    assert [' '] + t + ['\n'] == " Slow down\n";
  }
}

=== FILE: byte_order.dfy ===
/** Byte order, as PHP's strcmp and ksort's SORT_STRING compare: byte
    strings compared byte by byte as unsigned numbers, a proper prefix
    first. This is the order SORT_STRING on its own would select, applied
    to the raw keys. Section 3.4.1.3.2 of RFC 5849 sorts the encoded names
    instead; the two agree when every key byte is unreserved
    (`OAuthParams.EncodedOrderOnUnreserved`). */
module ByteOrder {
  import opened Bytes

  /** `a` sorts strictly before `b`. */
  predicate Below(a: Bytes, b: Bytes)
  {
    if a == [] then b != []
    else if b == [] then false
    else a[0] < b[0] || (a[0] == b[0] && Below(a[1..], b[1..]))
  }

  lemma {:induction false} BelowIrreflexive(a: Bytes)
    ensures !Below(a, a)
  {
    if a != [] {
      BelowIrreflexive(a[1..]);
    }
  }

  lemma {:induction false} BelowTransitive(a: Bytes, b: Bytes, c: Bytes)
    requires Below(a, b) && Below(b, c)
    ensures Below(a, c)
  {
    if a != [] && b != [] && c != [] && a[0] == b[0] && b[0] == c[0] {
      BelowTransitive(a[1..], b[1..], c[1..]);
    }
  }

  lemma {:induction false} BelowTotal(a: Bytes, b: Bytes)
    ensures a == b || Below(a, b) || Below(b, a)
  {
    if a != [] && b != [] && a[0] == b[0] {
      BelowTotal(a[1..], b[1..]);
      if a[1..] == b[1..] {
        assert a == [a[0]] + a[1..] && b == [b[0]] + b[1..];
      }
    }
  }

  lemma {:induction false} BelowAsymmetric(a: Bytes, b: Bytes)
    requires Below(a, b)
    ensures !Below(b, a)
  {
    if a != [] && b != [] && a[0] == b[0] {
      BelowAsymmetric(a[1..], b[1..]);
    }
  }

  /** Never both ways round: what the sorting proofs use in place of
      asymmetry when they do not know which way round holds. */
  lemma BelowAntisymmetric(a: Bytes, b: Bytes)
    ensures !(Below(a, b) && Below(b, a))
  {
    if Below(a, b) {
      BelowAsymmetric(a, b);
    }
  }
}

=== FILE: bytes.dfy ===
/** PHP strings are byte strings. The model writes them as sequences of
    characters below 256 so that literals stay readable. This module holds
    the byte-level helpers the client relies on: PHP truthiness, ASCII
    upper-casing, trim(), and decimal printing and reading of integers. */
module Bytes {

  type Byte = c: char | c as int < 256
  type Bytes = seq<Byte>

  predicate IsDigit(b: Byte) { '0' <= b <= '9' }
  predicate IsUpperAlpha(b: Byte) { 'A' <= b <= 'Z' }
  predicate IsLowerAlpha(b: Byte) { 'a' <= b <= 'z' }
  predicate IsAlnum(b: Byte) { IsDigit(b) || IsUpperAlpha(b) || IsLowerAlpha(b) }

  predicate AllDigits(s: Bytes)
  {
    forall i :: 0 <= i < |s| ==> IsDigit(s[i])
  }

  /** PHP's truthiness of a string: exactly "" and "0" are false. */
  predicate Truthy(s: Bytes)
  {
    s != [] && s != "0"
  }

  // ---------------------------------------------------------------------
  // strtoupper (ASCII letters only: in the C locale, and always from PHP 8.2)

  function UpperByte(b: Byte): Byte
  {
    if IsLowerAlpha(b) then (b as int - 32) as char else b
  }

  /** Upper-cases the ASCII letters of `s`; every other byte is kept. */
  function ToUpper(s: Bytes): (r: Bytes)
    ensures |r| == |s|
    ensures forall i :: 0 <= i < |s| ==> !IsLowerAlpha(r[i])
    ensures forall i :: 0 <= i < |s| && !IsLowerAlpha(s[i]) ==> r[i] == s[i]
    ensures forall i :: 0 <= i < |s| && IsLowerAlpha(s[i]) ==> r[i] as int + 32 == s[i] as int
  {
    if s == [] then [] else [UpperByte(s[0])] + ToUpper(s[1..])
  }

  // ---------------------------------------------------------------------
  // trim() with its default character list " \t\n\r\0\x0B"

  predicate IsTrimmable(b: Byte)
  {
    b == ' ' || b == '\t' || b == '\n' || b == '\r' || b as int == 0 || b as int == 11
  }

  /** The first non-trimmable position at or after `i`, or the end. */
  function FirstKept(s: Bytes, i: nat): (j: nat)
    requires i <= |s|
    ensures i <= j <= |s|
    ensures forall k :: i <= k < j ==> IsTrimmable(s[k])
    ensures j < |s| ==> !IsTrimmable(s[j])
    decreases |s| - i
  {
    if i < |s| && IsTrimmable(s[i]) then FirstKept(s, i + 1) else i
  }

  /** The end of the last non-trimmable byte before `j`, or 0. */
  function LastKept(s: Bytes, j: nat): (e: nat)
    requires j <= |s|
    ensures e <= j
    ensures forall k :: e <= k < j ==> IsTrimmable(s[k])
    ensures e > 0 ==> !IsTrimmable(s[e - 1])
  {
    if j > 0 && IsTrimmable(s[j - 1]) then LastKept(s, j - 1) else j
  }

  /** Where trim()'s result starts. */
  function TrimStart(s: Bytes): nat
  {
    FirstKept(s, 0)
  }

  /** PHP trim(): the slice of `s` between its first and its last
      non-trimmable byte. Only trimmable bytes lie before and after it,
      and neither end of it is trimmable. */
  function Trim(s: Bytes): (r: Bytes)
    ensures |r| <= |s|
    ensures r == [] || (!IsTrimmable(r[0]) && !IsTrimmable(r[|r| - 1]))
    ensures var i := TrimStart(s);
      && i + |r| <= |s| && r == s[i..i + |r|]
      && (forall k :: 0 <= k < i ==> IsTrimmable(s[k]))
      && (forall k :: i + |r| <= k < |s| ==> IsTrimmable(s[k]))
  {
    var i := FirstKept(s, 0);
    if i == |s| then []
    else
      var e := LastKept(s, |s|);
      s[i..e]
  }

  /** trim() drops one trimmable byte on each side of such a string. */
  lemma TrimPadded(a: Byte, t: Bytes, b: Byte)
    requires IsTrimmable(a) && IsTrimmable(b)
    requires t != [] && !IsTrimmable(t[0]) && !IsTrimmable(t[|t| - 1])
    ensures Trim([a] + t + [b]) == t
  {
    var m := [a] + t + [b];
    assert m[0] == a && m[1] == t[0];
    assert FirstKept(m, 1) == 1;
    assert FirstKept(m, 0) == 1;
    assert m[|m| - 1] == b && m[|m| - 2] == t[|t| - 1];
    assert LastKept(m, |m| - 1) == |m| - 1;
    assert LastKept(m, |m|) == |m| - 1;
    assert m[1..|m| - 1] == t;
  }

  // ---------------------------------------------------------------------
  // Decimal printing (sprintf %u / %d, (string) of an int) and reading
  // ((int) of a string)

  function DigitByte(d: nat): Byte
    requires d < 10
  {
    ('0' as int + d) as char
  }

  function DigitValue(b: Byte): nat
    requires IsDigit(b)
  {
    b as int - '0' as int
  }

  /** The decimal digits of `n`, without leading zeros. */
  function NatToDecimal(n: nat): (r: Bytes)
    ensures |r| > 0 && AllDigits(r)
    ensures r[0] == '0' ==> n == 0 && |r| == 1
    decreases n
  {
    if n < 10 then [DigitByte(n)] else NatToDecimal(n / 10) + [DigitByte(n % 10)]
  }

  /** The value of a run of decimal digits. */
  function DigitsValue(ds: Bytes): nat
    requires AllDigits(ds)
  {
    if ds == [] then 0 else DigitsValue(ds[..|ds| - 1]) * 10 + DigitValue(ds[|ds| - 1])
  }

  lemma {:induction false} DecimalRoundTrip(n: nat)
    ensures DigitsValue(NatToDecimal(n)) == n
    decreases n
  {
    if n >= 10 {
      var r := NatToDecimal(n);
      DecimalRoundTrip(n / 10);
      assert r[..|r| - 1] == NatToDecimal(n / 10);
    }
  }

  /** PHP's (string) of an int, and sprintf's %d: a minus sign exactly
      for a negative number, then the digits of its magnitude without
      leading zeros. */
  function IntToDecimal(i: int): (r: Bytes)
    ensures |r| > 0 && (r[0] == '-' <==> i < 0)
  {
    if i < 0 then "-" + NatToDecimal(-i) else NatToDecimal(i)
  }

  lemma DecimalShape(i: int)
    ensures var r := IntToDecimal(i); var d := if i < 0 then r[1..] else r;
      d != [] && AllDigits(d) && (d[0] == '0' ==> |d| == 1)
      && DigitsValue(d) == if i < 0 then -i else i
  {
    if i < 0 {
      DecimalRoundTrip(-i);
      var d := NatToDecimal(-i);
      assert ("-" + d)[1..] == d;
    } else {
      DecimalRoundTrip(i);
    }
  }

  /** sprintf's %u: a PHP int read as an unsigned 64-bit number. */
  function U64(i: int): nat
  {
    i % 0x1_0000_0000_0000_0000
  }

  /** The longest run of decimal digits at the front of `s`. */
  function LeadingDigits(s: Bytes): (r: Bytes)
    ensures |r| <= |s| && r == s[..|r|] && AllDigits(r)
    ensures |r| < |s| ==> !IsDigit(s[|r|])
  {
    if s != [] && IsDigit(s[0]) then [s[0]] + LeadingDigits(s[1..]) else []
  }

  /** A digit run ended by a non-digit is exactly what LeadingDigits takes. */
  lemma {:induction false} LeadingDigitsAt(s: Bytes, n: nat)
    requires n < |s| && AllDigits(s[..n]) && !IsDigit(s[n])
    ensures LeadingDigits(s) == s[..n]
  {
    if n > 0 {
      assert IsDigit(s[..n][0]);
      assert s[1..][..n - 1] == s[..n][1..];
      LeadingDigitsAt(s[1..], n - 1);
      assert s[..n] == [s[0]] + s[1..][..n - 1];
    }
  }

  predicate IsNumericSpace(b: Byte)
  {
    b == ' ' || b == '\t' || b == '\n' || b == '\r' || b as int == 11 || b as int == 12
  }

  function SkipSpace(s: Bytes): (r: Bytes)
    ensures |r| <= |s| && r == s[|s| - |r|..]
    ensures r == [] || !IsNumericSpace(r[0])
  {
    if s != [] && IsNumericSpace(s[0]) then SkipSpace(s[1..]) else s
  }

  /** PHP's (int) cast of a string: leading white space, an optional sign,
      then the longest run of digits; no digits read as 0. */
  function IntCast(s: Bytes): (r: int)
    ensures var t := SkipSpace(s);
      t == [] || (t[0] != '-' && t[0] != '+' && !IsDigit(t[0])) ==> r == 0
    ensures r < 0 ==> SkipSpace(s) != [] && SkipSpace(s)[0] == '-'
  {
    var t := SkipSpace(s);
    if t != [] && (t[0] == '-' || t[0] == '+') then
      var magnitude: int := DigitsValue(LeadingDigits(t[1..]));
      if t[0] == '-' then -magnitude else magnitude
    else DigitsValue(LeadingDigits(t))
  }

  lemma LeadingDigitsOfDigits(s: Bytes)
    requires AllDigits(s)
    ensures LeadingDigits(s) == s
  {
  }

  /** A digit run followed by anything but a digit is the leading run. */
  lemma LeadingDigitsThen(d: Bytes, rest: Bytes)
    requires AllDigits(d) && (rest == [] || !IsDigit(rest[0]))
    ensures LeadingDigits(d + rest) == d
  {
    if rest == [] {
      assert d + rest == d;
      LeadingDigitsOfDigits(d);
    } else {
      var s := d + rest;
      assert s[..|d|] == d;
      LeadingDigitsAt(s, |d|);
    }
  }

  /** What may follow a number for (int) to stop right there: nothing, or
      a byte that neither continues the digits nor starts a fraction or
      an exponent (PHP 7.1 on reads "12e3" as 12000). */
  predicate EndsNumber(rest: Bytes)
  {
    rest == [] || (!IsDigit(rest[0]) && rest[0] != '.' && rest[0] != 'e' && rest[0] != 'E')
  }

  /** (int) of a digit run followed by what ends a number is the run's
      value. */
  lemma IntCastDigitsThen(d: Bytes, rest: Bytes)
    requires d != [] && AllDigits(d) && EndsNumber(rest)
    ensures IntCast(d + rest) == DigitsValue(d)
  {
    var s := d + rest;
    assert IsDigit(s[0]) && !IsNumericSpace(s[0]);
    assert SkipSpace(s) == s;
    assert s[0] != '-' && s[0] != '+';
    LeadingDigitsThen(d, rest);
  }

  /** The same after a minus sign. */
  lemma IntCastNegatedThen(d: Bytes, rest: Bytes)
    requires d != [] && AllDigits(d) && EndsNumber(rest)
    ensures IntCast("-" + d + rest) == -(DigitsValue(d) as int)
  {
    var s := "-" + d + rest;
    assert !IsNumericSpace(s[0]);
    assert SkipSpace(s) == s;
    assert s[1..] == d + rest;
    LeadingDigitsThen(d, rest);
  }

  /** (int) stops at the first byte after the printed number: reading
      (string) $i followed by anything that ends a number gives back $i. */
  lemma IntCastReadsDecimalThen(i: int, rest: Bytes)
    requires EndsNumber(rest)
    ensures IntCast(IntToDecimal(i) + rest) == i
  {
    var r := IntToDecimal(i);
    DecimalShape(i);
    if i < 0 {
      var d := r[1..];
      assert r == "-" + d;
      IntCastNegatedThen(d, rest);
    } else {
      IntCastDigitsThen(r, rest);
    }
  }

  /** Reading back what PHP printed: (int) (string) $i == $i. */
  lemma IntCastReadsDecimal(i: int)
    ensures IntCast(IntToDecimal(i)) == i
  {
    IntCastReadsDecimalThen(i, []);
    assert IntToDecimal(i) + [] == IntToDecimal(i);
  }
}

=== FILE: client.dfy ===
/** TwitterApiClient: the credentials it holds, the auth gate, argument
    sanitising, the shaping of the signed GET or POST request, the
    per-path rate-limit bookkeeping, the cache key, and the
    post-processing of a decoded response in `call`. Transport, JSON
    decoding, the cache store, md5 of the arguments, the clock and the
    nonce are all parameters. */
module TwitterClient {
  import opened Wrappers
  import opened Bytes
  import opened PhpArray
  import opened NaturalOrder
  import opened QueryString
  import opened OAuthToken
  import opened OAuthParams
  import opened ApiErrors

  // ---------------------------------------------------------------------
  // sanitize_args

  /** The argument values the model takes: strings, booleans, null,
      integers, and the non-scalars (arrays, objects, resources) by their
      gettype() name. */
  datatype PhpValue = Str(s: Bytes) | Bool(b: bool) | Null | Int(i: int) | NonScalar(typeName: Bytes)

  const TrueText: Bytes := "true"
  const FalseText: Bytes := "false"

  /** One value as sanitize_args stores it; None where it throws. */
  function SanitizeValue(v: PhpValue): (r: Option<Bytes>)
    ensures r.None? <==> v.NonScalar?
    ensures v.Str? ==> r == Some(v.s)
    ensures v.Int? ==> r == Some(IntToDecimal(v.i)) && IntCast(r.value) == v.i
    ensures v.Bool? ==> r == Some(if v.b then TrueText else FalseText)
    ensures v.Null? ==> r == Some(FalseText)
  {
    match v
    case Str(s) => Some(s)
    case Bool(b) => if b then Some(TrueText) else Some(FalseText)
    case Null => Some(FalseText)
    case Int(i) => IntCastReadsDecimal(i); Some(IntToDecimal(i))
    case NonScalar(_) => None
  }

  const InvalidPrefix: Bytes := "Invalid Twitter parameter ("

  function InvalidParameter(key: Bytes, typeName: Bytes): ApiException
  {
    NewException(InvalidPrefix + typeName + ") " + key, -1, 0)
  }

  predicate AllScalar(args: Pairs<PhpValue>)
  {
    forall i :: 0 <= i < |args| ==> !args[i].1.NonScalar?
  }

  /** sanitize_args: every key kept in order with its value made a string,
      or the exception for the first non-scalar value. */
  function SanitizeArgs(args: Pairs<PhpValue>): (r: Result<Pairs<Bytes>, ApiException>)
    ensures r.Ok? <==> AllScalar(args)
    ensures r.Err? ==> r.error.code == -1 && r.error.status == 0
    ensures r.Ok? ==> |r.value| == |args|
    ensures r.Ok? ==> forall i :: 0 <= i < |args| ==>
      r.value[i].0 == args[i].0 && Some(r.value[i].1) == SanitizeValue(args[i].1)
  {
    if args == [] then Ok([])
    else
      match SanitizeValue(args[0].1)
      case None =>
        assert AllScalar(args[..0]);
        Err(InvalidParameter(args[0].0, args[0].1.typeName))
      case Some(v) =>
        match SanitizeArgs(args[1..])
        case Ok(rest) => Ok([(args[0].0, v)] + rest)
        case Err(e) =>
          Err(e)
  }

  /** The exception names the first non-scalar argument, by key and
      type. */
  lemma {:induction false} SanitizeReportsFirst(args: Pairs<PhpValue>, i: nat)
    requires i < |args| && args[i].1.NonScalar? && AllScalar(args[..i])
    ensures SanitizeArgs(args) == Err(InvalidParameter(args[i].0, args[i].1.typeName))
  {
    if i > 0 {
      assert !args[..i][0].1.NonScalar?;
      assert args[1..][..i - 1] == args[..i][1..];
      SanitizeReportsFirst(args[1..], i - 1);
    }
  }

  /** Sanitising keeps the key set, so a PHP array stays one. */
  lemma SanitizeKeepsKeys(args: Pairs<PhpValue>)
    requires UniqueKeys(args) && AllScalar(args)
    ensures UniqueKeys(SanitizeArgs(args).value)
  {
  }

  /** Arguments that are already strings pass through unchanged. */
  lemma SanitizeStrings(args: Pairs<Bytes>)
    ensures SanitizeArgs(seq(|args|, i requires 0 <= i < |args| => (args[i].0, Str(args[i].1)))) == Ok(args)
  {
    var wrapped := seq(|args|, i requires 0 <= i < |args| => (args[i].0, Str(args[i].1)));
    assert AllScalar(wrapped);
    var r := SanitizeArgs(wrapped).value;
    forall i | 0 <= i < |args|
      ensures r[i] == args[i]
    {
      assert wrapped[i] == (args[i].0, Str(args[i].1));
      assert Some(r[i].1) == SanitizeValue(Str(args[i].1));
    }
    assert |r| == |args|;
    assert r == args;
  }

  // ---------------------------------------------------------------------
  // Client state: credentials, cache settings, rate-limit registry

  datatype CacheConfig = CacheConfig(ttl: int, namespace: Bytes)

  /** One snapshot of the x-rate-limit-* headers. */
  datatype RateSnapshot = RateSnapshot(limit: int, remaining: int, reset: int)

  datatype Client = Client(
    consumer: Option<Token>,
    access: Option<Token>,
    cache: Option<CacheConfig>,
    lastRate: map<Bytes, RateSnapshot>,
    lastCall: Option<Bytes>)

  /** A newly constructed client: nothing set. */
  const Fresh: Client := Client(None, None, None, map[], None)

  /** What set_oauth guarantees: an access token is set only together
      with a consumer. */
  predicate WellFormed(c: Client)
  {
    c.access.Some? ==> c.consumer.Some?
  }

  /** has_auth: an access token whose secret is not falsy. */
  predicate HasAuth(c: Client)
  {
    c.access.Some? && Truthy(c.access.value.secret)
  }

  /** The token constructor only refuses a falsy key, so an access token
      it builds gives auth exactly when its secret is truthy. */
  lemma HasAuthTracksSecret(c: Client, key: Bytes, secret: Bytes)
    requires Truthy(key)
    ensures NewToken(key, secret).Ok?
    ensures HasAuth(c.(access := Some(NewToken(key, secret).value))) <==> Truthy(secret)
    ensures !HasAuth(c.(access := None))
  {
  }

  /** deauthorize: the access token becomes null. */
  function Deauthorize(c: Client): (r: Client)
    ensures r.access.None?
    ensures !HasAuth(r) && WellFormed(r)
    ensures r.consumer == c.consumer && r.cache == c.cache
    ensures r.lastRate == c.lastRate && r.lastCall == c.lastCall
  {
    c.(access := None)
  }

  /** set_oauth: drops the access token first, then sets the consumer (the
      token constructor throws on a falsy key, leaving the client
      deauthorised) and sets the access token only when both its key and
      its secret are truthy. The second component is the message of an
      exception thrown. */
  function SetOAuth(c: Client, consumerKey: Bytes, consumerSecret: Bytes, accessKey: Bytes, accessSecret: Bytes)
    : (r: (Client, Option<Bytes>))
    ensures WellFormed(r.0)
    ensures r.1.Some? <==> !Truthy(consumerKey)
    ensures r.1.Some? ==> r.1.value == KeyRequired && r.0 == Deauthorize(c)
    ensures r.1.None? ==> r.0.consumer == Some(Token(consumerKey, consumerSecret, []))
    ensures HasAuth(r.0) <==> Truthy(consumerKey) && Truthy(accessKey) && Truthy(accessSecret)
    ensures r.0.access.Some? <==> r.1.None? && Truthy(accessKey) && Truthy(accessSecret)
    ensures r.0.access.Some? ==> r.0.access == Some(Token(accessKey, accessSecret, []))
    ensures r.0.cache == c.cache && r.0.lastRate == c.lastRate && r.0.lastCall == c.lastCall
  {
    var cleared := Deauthorize(c);
    match NewToken(consumerKey, consumerSecret)
    case Err(message) => (cleared, Some(message))
    case Ok(consumer) =>
      var withConsumer := cleared.(consumer := Some(consumer));
      if Truthy(accessKey) && Truthy(accessSecret) then
        (withConsumer.(access := Some(NewToken(accessKey, accessSecret).value)), None)
      else (withConsumer, None)
  }

  // ---------------------------------------------------------------------
  // Cache key

  /** The account id a token key starts with, as `/^(\d+)-/` captures it. */
  function AccountId(key: Bytes): (r: Option<Bytes>)
    ensures r.Some? ==> (r.value != [] && AllDigits(r.value)
      && |r.value| < |key| && key[..|r.value|] == r.value && key[|r.value|] == '-')
    ensures r.None? ==> forall n :: 0 < n < |key| && key[n] == '-' ==> !AllDigits(key[..n])
  {
    var d := LeadingDigits(key);
    assert forall n :: 0 < n < |key| && key[n] == '-' && AllDigits(key[..n]) ==> d == key[..n] by {
      forall n | 0 < n < |key| && key[n] == '-' && AllDigits(key[..n])
        ensures d == key[..n]
      {
        LeadingDigitsAt(key, n);
      }
    }
    if d != [] && |d| < |key| && key[|d|] == '-' then Some(d) else None
  }

  /** The APC key of a GET call: namespace, path, '_', the digest of the
      sanitised arguments, and '_' and the account id when the access
      token's key has one. */
  function CacheKey(cfg: CacheConfig, path: Bytes, args: Pairs<Bytes>, digest: Pairs<Bytes> -> Bytes, access: Option<Token>)
    : (r: Bytes)
    ensures var base := cfg.namespace + path + "_" + digest(args);
      && |base| <= |r| && r[..|base|] == base
      && (|r| > |base| <==> access.Some? && AccountId(access.value.key).Some?)
      && (|r| > |base| ==> r[|base|..] == "_" + AccountId(access.value.key).value)
  {
    var base := cfg.namespace + path + "_" + digest(args);
    if access.Some? && AccountId(access.value.key).Some? then base + "_" + AccountId(access.value.key).value
    else base
  }

  /** Two access tokens with different account ids never share a cache
      entry, and one with an id never shares it with one without. */
  lemma CacheKeySeparatesAccounts(cfg: CacheConfig, path: Bytes, args: Pairs<Bytes>, digest: Pairs<Bytes> -> Bytes,
                                  a: Option<Token>, b: Option<Token>)
    requires (if a.Some? then AccountId(a.value.key) else None) != (if b.Some? then AccountId(b.value.key) else None)
    ensures CacheKey(cfg, path, args, digest, a) != CacheKey(cfg, path, args, digest, b)
  {
    var base := cfg.namespace + path + "_" + digest(args);
    var ka, kb := CacheKey(cfg, path, args, digest, a), CacheKey(cfg, path, args, digest, b);
    if a.Some? && AccountId(a.value.key).Some? && b.Some? && AccountId(b.value.key).Some? {
      var ia, ib := AccountId(a.value.key).value, AccountId(b.value.key).value;
      assert ka[|base| + 1..] == ia && kb[|base| + 1..] == ib;
    } else if a.Some? && AccountId(a.value.key).Some? {
      assert |ka| > |base| && kb == base;
    } else if b.Some? && AccountId(b.value.key).Some? {
      assert |kb| > |base| && ka == base;
    }
  }

  /** After deauthorize, the cache key carries no account suffix, and a
      second deauthorize changes nothing. */
  lemma DeauthorizedCacheKey(c: Client, cfg: CacheConfig, path: Bytes, args: Pairs<Bytes>, digest: Pairs<Bytes> -> Bytes)
    ensures CacheKey(cfg, path, args, digest, Deauthorize(c).access) == cfg.namespace + path + "_" + digest(args)
    ensures Deauthorize(Deauthorize(c)) == Deauthorize(c)
  {
  }

  // ---------------------------------------------------------------------
  // rest_request

  const ApiBase: Bytes := "https://api.twitter.com/1.1"
  const QueryMark: Bytes := "?"
  const GetVerb: Bytes := "GET"
  const PostVerb: Bytes := "POST"
  const NotAuthenticatedText: Bytes := "Twitter client not authenticated"
  const UnsupportedPrefix: Bytes := "Unsupported method "
  const NoResponseText: Bytes := "No response from Twitter"
  const LimitHeader: Bytes := "x-rate-limit-limit"
  const RemainingHeader: Bytes := "x-rate-limit-remaining"
  const ResetHeader: Bytes := "x-rate-limit-reset"

  function Endpoint(path: Bytes): Bytes
  {
    ApiBase + "/" + path + ".json"
  }

  /** What the transport is handed: the method, the full URL, and the
      body (empty unless POST). */
  datatype HttpRequest = HttpRequest(verb: Bytes, url: Bytes, body: Bytes)

  /** A response with a non-zero status, headers keyed by lower-cased
      name. */
  datatype HttpResponse = HttpResponse(body: Bytes, status: int, headers: Pairs<Bytes>)

  /** What came back: a response, or nothing and cURL's error text. */
  datatype Transmission = Received(response: HttpResponse) | Failed(curlError: Bytes)

  /** The clock reading, the nonce, and the crypto primitives. */
  datatype Signer = Signer(crypto: Crypto, time: int, nonce: Bytes)

  /** Why a call did not return data: an API exception, or PHP's type
      error from signing with no consumer token. */
  datatype Failure = Api(error: ApiException) | MissingConsumer

  const NotAuthenticated: ApiException := NewException(NotAuthenticatedText, 0, 401)

  /** The request arguments after the consumer and access tokens are set
      and the request is signed for the endpoint. */
  function SignedArgs(c: Client, path: Bytes, args: Pairs<Bytes>, verb: Bytes, signer: Signer): Pairs<Bytes>
    requires UniqueKeys(args) && c.consumer.Some? && c.access.Some?
  {
    var p := SetToken(SetConsumer(New(args), c.consumer.value), c.access.value);
    SignHmac(p, verb, Endpoint(path), signer.time, signer.nonce, signer.crypto).args
  }

  /** The request arguments signed as the code's flags have it: the key
      sort is natural order. */
  function SignedArgsAsWritten(c: Client, path: Bytes, args: Pairs<Bytes>, verb: Bytes, signer: Signer): Pairs<Bytes>
    requires UniqueKeys(args) && c.consumer.Some? && c.access.Some?
  {
    var p := SetToken(SetConsumer(New(args), c.consumer.value), c.access.value);
    SignHmacAsWritten(p, verb, Endpoint(path), signer.time, signer.nonce, signer.crypto).args
  }

  /** The auth gate, signing, and request shaping of rest_request, with
      http_request's refusal of methods other than GET and POST. */
  function PrepareRequest(c: Client, path: Bytes, args: Pairs<Bytes>, verb: Bytes, signer: Signer)
    : (r: Result<HttpRequest, Failure>)
    requires UniqueKeys(args)
    ensures !HasAuth(c) ==> r == Err(Api(NotAuthenticated))
    ensures HasAuth(c) && c.consumer.None? ==> r == Err(MissingConsumer)
    ensures r.Ok? <==> HasAuth(c) && c.consumer.Some? && (verb == GetVerb || verb == PostVerb)
    ensures r.Ok? ==> r.value.verb == verb
    ensures r.Ok? && verb == GetVerb ==>
      r.value.url == Endpoint(path) + QueryMark + Serialize(SignedArgs(c, path, args, verb, signer)) && r.value.body == []
    ensures r.Ok? && verb == PostVerb ==>
      r.value.url == Endpoint(path) && r.value.body == Serialize(SignedArgs(c, path, args, verb, signer))
    ensures HasAuth(c) && c.consumer.Some? && verb != GetVerb && verb != PostVerb ==>
      r == Err(Api(PlainException(UnsupportedPrefix + verb)))
  {
    if !HasAuth(c) then Err(Api(NotAuthenticated))
    else if c.consumer.None? then Err(MissingConsumer)
    else
      var query := Serialize(SignedArgs(c, path, args, verb, signer));
      if verb == GetVerb then Ok(HttpRequest(verb, Endpoint(path) + QueryMark + query, []))
      else if verb == PostVerb then Ok(HttpRequest(verb, Endpoint(path), query))
      else Err(Api(PlainException(UnsupportedPrefix + verb)))
  }

  /** With no digit and no white space in any caller key, the request
      carries the arguments the code's natural-order signing produces. */
  lemma PrepareRequestOnPlainKeys(c: Client, path: Bytes, args: Pairs<Bytes>, verb: Bytes, signer: Signer)
    requires UniqueKeys(args) && PlainKeys(args) && HasAuth(c) && c.consumer.Some?
    requires verb == GetVerb || verb == PostVerb
    ensures var r := PrepareRequest(c, path, args, verb, signer);
      var query := Serialize(SignedArgsAsWritten(c, path, args, verb, signer));
      r.Ok? && r.value.verb == verb
      && (verb == GetVerb ==> r.value.url == Endpoint(path) + QueryMark + query && r.value.body == [])
      && (verb == PostVerb ==> r.value.url == Endpoint(path) && r.value.body == query)
  {
    TokensKeepPlain(args, c.consumer.value, c.access.value);
    var p := SetToken(SetConsumer(New(args), c.consumer.value), c.access.value);
    SignHmacAsWrittenOnPlainKeys(p, verb, Endpoint(path), signer.time, signer.nonce, signer.crypto);
  }

  /** What the signed arguments hold, key by key: the OAuth fields the
      client and the signer set, and every other argument as the caller
      gave it. */
  lemma SignedArgsReads(c: Client, path: Bytes, args: Pairs<Bytes>, verb: Bytes, signer: Signer, k: Bytes)
    requires UniqueKeys(args) && c.consumer.Some? && c.access.Some?
    ensures var s := SignedArgs(c, path, args, verb, signer);
      |s| > 0 && Get(s, k) ==
        if k == SignatureMethod then Some(HmacSha1)
        else if k == TimestampKey then Some(Timestamp(signer.time))
        else if k == NonceKey then Some(signer.nonce)
        else if k == SignatureKey then Some(s[|s| - 1].1)
        else if k == TokenKey then Some(c.access.value.key)
        else if k == ConsumerKey then Some(c.consumer.value.key)
        else if k == Version then Some(Get(args, Version).GetOr(OneZero))
        else Get(args, k)
  {
    var p := SetToken(SetConsumer(New(args), c.consumer.value), c.access.value);
    SignHmacFields(p, verb, Endpoint(path), signer.time, signer.nonce, signer.crypto, k);
  }

  /** The query of a signed GET reads back, through the query parser, to
      the signed arguments. */
  lemma GetQueryReadsBack(c: Client, path: Bytes, args: Pairs<Bytes>, signer: Signer)
    requires UniqueKeys(args) && HasAuth(c) && c.consumer.Some?
    ensures var r := PrepareRequest(c, path, args, GetVerb, signer);
      && r.Ok?
      && r.value.url[..|Endpoint(path)| + 1] == Endpoint(path) + QueryMark
      && ParseQuery(r.value.url[|Endpoint(path)| + 1..]) == Some(SignedArgs(c, path, args, GetVerb, signer))
  {
    var s := SignedArgs(c, path, args, GetVerb, signer);
    var url := PrepareRequest(c, path, args, GetVerb, signer).value.url;
    assert url[|Endpoint(path)| + 1..] == Serialize(s);
    SerializeRoundTrip(s);
  }

  /** rest_request records the endpoint as the last call, and replaces its
      rate-limit snapshot when the limit header is present; a missing
      remaining or reset header reads as 0. */
  function RecordResponse(c: Client, path: Bytes, response: HttpResponse): (r: Client)
    ensures r.lastCall == Some(path)
    ensures HasKey(response.headers, LimitHeader) ==> path in r.lastRate && r.lastRate[path] == RateSnapshot(
      IntCast(Get(response.headers, LimitHeader).value),
      IntCast(Get(response.headers, RemainingHeader).GetOr([])),
      IntCast(Get(response.headers, ResetHeader).GetOr([])))
    ensures !HasKey(response.headers, LimitHeader) ==> r.lastRate == c.lastRate
    ensures forall p :: p != path ==> (p in r.lastRate <==> p in c.lastRate)
    ensures forall p :: p != path && p in c.lastRate ==> r.lastRate[p] == c.lastRate[p]
    ensures r.consumer == c.consumer && r.access == c.access && r.cache == c.cache
  {
    var h := response.headers;
    var rates := if HasKey(h, LimitHeader) then c.lastRate[path := HeaderSnapshot(h)] else c.lastRate;
    c.(lastCall := Some(path), lastRate := rates)
  }

  /** The three limit headers, each cast with (int); a missing one reads
      as 0. */
  function HeaderSnapshot(h: Pairs<Bytes>): RateSnapshot
    requires HasKey(h, LimitHeader)
  {
    RateSnapshot(IntCast(Get(h, LimitHeader).value), IntCast(Get(h, RemainingHeader).GetOr([])), IntCast(Get(h, ResetHeader).GetOr([])))
  }

  /** The client after the exchange, the request handed to the transport
      (if any), and the response or the failure. */
  datatype Exchange = Exchange(client: Client, sent: Option<HttpRequest>, result: Result<HttpResponse, Failure>)

  /** rest_request, with http_request's failure branch: the message is
      cURL's error text, or a fixed one when that is empty. */
  function RestRequest(c: Client, path: Bytes, args: Pairs<Bytes>, verb: Bytes, signer: Signer,
                       transport: HttpRequest -> Transmission): (r: Exchange)
    requires UniqueKeys(args)
    ensures r.sent.Some? <==> PrepareRequest(c, path, args, verb, signer).Ok?
    ensures r.sent.Some? ==> r.sent.value == PrepareRequest(c, path, args, verb, signer).value
    ensures r.sent.None? ==> r.client == c && r.result == Err(PrepareRequest(c, path, args, verb, signer).error)
    ensures r.result.Ok? ==> (r.sent.Some? && transport(r.sent.value) == Received(r.result.value)
      && r.client == RecordResponse(c, path, r.result.value))
    ensures r.sent.Some? && transport(r.sent.value).Received? ==> (r.result == Ok(transport(r.sent.value).response)
      && r.client == RecordResponse(c, path, transport(r.sent.value).response))
    ensures r.sent.Some? && transport(r.sent.value).Failed? ==> (r.client == c && r.result.Err?
      && r.result.error.Api? && r.result.error.error.status == 0)
  {
    match PrepareRequest(c, path, args, verb, signer)
    case Err(f) => Exchange(c, None, Err(f))
    case Ok(request) =>
      match transport(request)
      case Failed(e) =>
        Exchange(c, Some(request), Err(Api(PlainException(if Truthy(e) then e else NoResponseText))))
      case Received(response) =>
        Exchange(RecordResponse(c, path, response), Some(request), Ok(response))
  }

  /** raw: sanitise, then rest_request; no cache and no decoding. */
  function Raw(c: Client, path: Bytes, args: Pairs<PhpValue>, verb: Bytes, signer: Signer,
               transport: HttpRequest -> Transmission): (r: Exchange)
    requires UniqueKeys(args)
    ensures !AllScalar(args) ==> (r.client == c && r.sent.None? && r.result.Err? && r.result.error.Api?
      && r.result.error.error.code == -1)
    ensures AllScalar(args) ==> r == RestRequest(c, path, SanitizeArgs(args).value, verb, signer, transport)
  {
    match SanitizeArgs(args)
    case Err(e) => Exchange(c, None, Err(Api(e)))
    case Ok(clean) => SanitizeKeepsKeys(args); RestRequest(c, path, clean, verb, signer, transport)
  }

  // ---------------------------------------------------------------------
  // call: the error drain

  const WarningPrefix: Bytes := "Twitter error #"
  const OpenQuote: Bytes := " \""
  const CloseQuote: Bytes := "\""

  /** The warning raised for an error that is not the last:
      sprintf('Twitter error #%d', code) and the message in quotes. */
  function Warning(e: ErrorEntry): Bytes
  {
    WarningPrefix + IntToDecimal(e.code.GetOr(0)) + OpenQuote + e.message.GetOr([]) + CloseQuote
  }

  /** What a warning says: after the prefix, (int) reads the code back (0
      when it is missing), and the untrimmed message closes the warning in
      quotes. */
  lemma WarningFormat(e: ErrorEntry)
    ensures var r := Warning(e);
      && |WarningPrefix| < |r| && r[..|WarningPrefix|] == WarningPrefix
      && IntCast(r[|WarningPrefix|..]) == e.code.GetOr(0)
      && var tail := OpenQuote + e.message.GetOr([]) + CloseQuote;
      |WarningPrefix| + |tail| < |r| && r[|r| - |tail|..] == tail
  {
    var code := IntToDecimal(e.code.GetOr(0));
    var tail := OpenQuote + e.message.GetOr([]) + CloseQuote;
    var r := Warning(e);
    assert r == WarningPrefix + code + tail;
    assert r[..|WarningPrefix|] == WarningPrefix;
    assert r[|WarningPrefix|..] == code + tail;
    assert r[|r| - |tail|..] == tail;
    IntCastReadsDecimalThen(e.code.GetOr(0), tail);
  }

  function Warnings(errs: seq<ErrorEntry>): (r: seq<Bytes>)
    ensures |r| == |errs|
    ensures forall i :: 0 <= i < |errs| ==> r[i] == Warning(errs[i])
  {
    if errs == [] then [] else [Warning(errs[0])] + Warnings(errs[1..])
  }

  /** The warnings raised, and either the errors left in the data or the
      exception thrown for the last one. */
  datatype Drained = Drained(warnings: seq<Bytes>, result: Result<seq<ErrorEntry>, ApiException>)

  /** What draining `errs` gives: the warned entries are a prefix of real
      errors, and then either the last one is thrown or an empty entry
      stops the loop with the rest left in place. */
  predicate DrainsAsLoop(errs: seq<ErrorEntry>, status: int, r: Drained)
  {
    && |r.warnings| <= |errs| && r.warnings == Warnings(errs[..|r.warnings|])
    && (forall i :: 0 <= i < |r.warnings| ==> EntryTruthy(errs[i]))
    && (r.result.Err? ==> (|r.warnings| + 1 == |errs| && EntryTruthy(errs[|errs| - 1])
      && r.result.error == Chuck(errs[|errs| - 1], status)))
    && (r.result.Ok? ==> ((errs == [] && r.result.value == [])
      || (|r.warnings| < |errs| && !EntryTruthy(errs[|r.warnings|]) && r.result.value == errs[|r.warnings| + 1..])))
  }

  /** The warnings about a prefix of the tail, behind the head's warning,
      are the warnings about a prefix of the whole list. */
  lemma WarningsOfPrefixCons(errs: seq<ErrorEntry>, w: seq<Bytes>)
    requires |w| < |errs| && w == Warnings(errs[1..][..|w|])
    ensures [Warning(errs[0])] + w == Warnings(errs[..|w| + 1])
  {
    var n := |w|;
    assert errs[..n + 1][1..] == errs[1..][..n];
  }

  /** One real error in front of a drained tail is one more warning. */
  lemma DrainsAsLoopCons(errs: seq<ErrorEntry>, status: int, d: Drained)
    requires |errs| > 1 && EntryTruthy(errs[0]) && DrainsAsLoop(errs[1..], status, d)
    ensures DrainsAsLoop(errs, status, Drained([Warning(errs[0])] + d.warnings, d.result))
  {
    var tail := errs[1..];
    var n := |d.warnings|;
    WarningsOfPrefixCons(errs, d.warnings);
    assert forall i :: 0 <= i < n ==> tail[i] == errs[i + 1];
    if d.result.Ok? {
      assert tail[n] == errs[n + 1] && tail[n + 1..] == errs[n + 2..];
    }
  }

  /** The `while ($err = array_shift($data['errors']))` loop: each error
      with more behind it is a warning, the last is thrown, and an empty
      (falsy) entry ends the loop with the rest left in place. */
  function DrainErrors(errs: seq<ErrorEntry>, status: int): (r: Drained)
    ensures DrainsAsLoop(errs, status, r)
    decreases |errs|
  {
    if errs == [] then Drained([], Ok([]))
    else if !EntryTruthy(errs[0]) then Drained([], Ok(errs[1..]))
    else if |errs| == 1 then Drained([], Err(Chuck(errs[0], status)))
    else
      var d := DrainErrors(errs[1..], status);
      DrainsAsLoopCons(errs, status, d);
      Drained([Warning(errs[0])] + d.warnings, d.result)
  }

  /** With every entry a real error object: all but the last are warned
      about, in order, and the last is thrown. */
  lemma DrainAllErrors(errs: seq<ErrorEntry>, status: int)
    requires errs != [] && forall i :: 0 <= i < |errs| ==> EntryTruthy(errs[i])
    ensures DrainErrors(errs, status) == Drained(Warnings(errs[..|errs| - 1]), Err(Chuck(errs[|errs| - 1], status)))
  {
  }

  /** An empty entry stops the loop: the entries before it are warned
      about and the entries after it stay in the data. */
  lemma DrainStopsAtEmpty(errs: seq<ErrorEntry>, status: int, i: nat)
    requires i < |errs| && !EntryTruthy(errs[i])
    requires forall j :: 0 <= j < i ==> EntryTruthy(errs[j])
    ensures DrainErrors(errs, status) == Drained(Warnings(errs[..i]), Ok(errs[i + 1..]))
  {
  }

  // ---------------------------------------------------------------------
  // call

  /** The decoded body: its "errors" member when set, and everything else. */
  datatype Data<P> = Data(errors: Option<seq<ErrorEntry>>, fields: P)

  /** json_decode(body, true): an array, or anything else. */
  datatype Decoded<P> = NotArray | Structure(data: Data<P>)

  /** What call relies on outside the client: the signer, the transport,
      the JSON decoder, md5 of the serialised arguments, and apc_fetch
      (None where it gives back no array). */
  datatype Services<P> = Services(
    signer: Signer,
    transport: HttpRequest -> Transmission,
    decode: Bytes -> Decoded<P>,
    digest: Pairs<Bytes> -> Bytes,
    cacheFetch: Bytes -> Option<Data<P>>)

  datatype CacheEntry<P> = CacheEntry(key: Bytes, data: Data<P>, ttl: int)

  /** The client afterwards, the request sent (if any), the warnings
      raised, the data or the failure, and what apc_store is given. */
  datatype CallOutcome<P> = CallOutcome(
    client: Client,
    sent: Option<HttpRequest>,
    warnings: seq<Bytes>,
    result: Result<Data<P>, Failure>,
    stored: Option<CacheEntry<P>>)

  /** The cache key of a call, when caching applies to it. */
  function CallCacheKey<P>(c: Client, path: Bytes, args: Pairs<Bytes>, verb: Bytes, env: Services<P>): Option<Bytes>
  {
    if verb == GetVerb && c.cache.Some? then Some(CacheKey(c.cache.value, path, args, env.digest, c.access)) else None
  }

  /** The error raised for a body that does not decode to an array: code
      -1 and no message, so the status text. */
  const NotArrayEntry: ErrorEntry := ErrorEntry(Some(-1), None, 1)

  function Call<P>(c: Client, path: Bytes, args: Pairs<PhpValue>, verb: Bytes, env: Services<P>): (r: CallOutcome<P>)
    requires UniqueKeys(args)
    ensures !AllScalar(args) ==> r.sent.None? && r.result.Err?
    ensures r.sent.None? ==> r.client == c && r.warnings == [] && r.stored.None?
    ensures r.result.Ok? && r.sent.None? ==> (SanitizeArgs(args).Ok?
      && var key := CallCacheKey(c, path, SanitizeArgs(args).value, verb, env);
      key.Some? && env.cacheFetch(key.value) == Some(r.result.value))
    ensures r.stored.Some? ==> (verb == GetVerb && c.cache.Some? && r.sent.Some? && SanitizeArgs(args).Ok?
      && r.result == Ok(r.stored.value.data) && r.stored.value.ttl == c.cache.value.ttl
      && r.stored.value.key == CacheKey(c.cache.value, path, SanitizeArgs(args).value, env.digest, c.access))
    ensures r.result.Err? ==> r.stored.None?
  {
    match SanitizeArgs(args)
    case Err(e) => CallOutcome(c, None, [], Err(Api(e)), None)
    case Ok(clean) =>
      SanitizeKeepsKeys(args);
      var key := CallCacheKey(c, path, clean, verb, env);
      if key.Some? && env.cacheFetch(key.value).Some? then
        CallOutcome(c, None, [], Ok(env.cacheFetch(key.value).value), None)
      else
        var ex := RestRequest(c, path, clean, verb, env.signer, env.transport);
        match ex.result
        case Err(f) => CallOutcome(ex.client, ex.sent, [], Err(f), None)
        case Ok(response) =>
          match env.decode(response.body)
          case NotArray =>
            CallOutcome(ex.client, ex.sent, [], Err(Api(Chuck(NotArrayEntry, response.status))), None)
          case Structure(data) =>
            var drained := if data.errors.Some? then DrainErrors(data.errors.value, response.status) else Drained([], Ok([]));
            match drained.result
            case Err(e) => CallOutcome(ex.client, ex.sent, drained.warnings, Err(Api(e)), None)
            case Ok(left) =>
              var kept := if data.errors.Some? then data.(errors := Some(left)) else data;
              var stored := if key.Some? then Some(CacheEntry(key.value, kept, c.cache.value.ttl)) else None;
              CallOutcome(ex.client, ex.sent, drained.warnings, Ok(kept), stored)
  }

  /** A non-scalar argument stops the call before anything is sent. */
  lemma CallRejectsNonScalar<P>(c: Client, path: Bytes, args: Pairs<PhpValue>, verb: Bytes, env: Services<P>)
    requires UniqueKeys(args) && !AllScalar(args)
    ensures var r := Call(c, path, args, verb, env);
      r.client == c && r.sent.None? && r.stored.None? && r.result.Err? && r.result.error.Api?
      && r.result.error.error.code == -1 && r.result.error.error.status == 0
  {
  }

  /** A cache hit answers a GET without sending anything, whether or not
      the client is authenticated. */
  lemma CallCacheHit<P>(c: Client, path: Bytes, args: Pairs<PhpValue>, env: Services<P>)
    requires UniqueKeys(args) && AllScalar(args) && c.cache.Some?
    requires env.cacheFetch(CacheKey(c.cache.value, path, SanitizeArgs(args).value, env.digest, c.access)).Some?
    ensures var r := Call(c, path, args, GetVerb, env);
      r.client == c && r.sent.None? && r.warnings == [] && r.stored.None?
      && r.result == Ok(env.cacheFetch(CacheKey(c.cache.value, path, SanitizeArgs(args).value, env.digest, c.access)).value)
  {
  }

  /** Without a cache hit, an unauthenticated client sends nothing and
      fails with status 401 and code 0. */
  lemma CallNotAuthenticated<P>(c: Client, path: Bytes, args: Pairs<PhpValue>, verb: Bytes, env: Services<P>)
    requires UniqueKeys(args) && AllScalar(args) && !HasAuth(c)
    requires var key := CallCacheKey(c, path, SanitizeArgs(args).value, verb, env);
      key.None? || env.cacheFetch(key.value).None?
    ensures var r := Call(c, path, args, verb, env);
      r.client == c && r.sent.None? && r.stored.None?
      && r.result == Err(Api(ApiException(Generic, NotAuthenticatedText, 0, 401)))
  {
    SanitizeKeepsKeys(args);
  }

  /** The outcome of a call whose request went out and came back. */
  predicate Answered<P>(c: Client, path: Bytes, args: Pairs<PhpValue>, verb: Bytes, env: Services<P>, response: HttpResponse)
    requires UniqueKeys(args)
  {
    && AllScalar(args)
    && UniqueKeys(SanitizeArgs(args).value)
    && var clean := SanitizeArgs(args).value;
    && var key := CallCacheKey(c, path, clean, verb, env);
    && (key.None? || env.cacheFetch(key.value).None?)
    && RestRequest(c, path, clean, verb, env.signer, env.transport).result == Ok(response)
  }

  /** A body that is not an array: code -1, the response status, the
      status text as message, and the class that status selects. The rate
      limits of the response are still recorded. */
  lemma CallNotArray<P>(c: Client, path: Bytes, args: Pairs<PhpValue>, verb: Bytes, env: Services<P>, response: HttpResponse)
    requires UniqueKeys(args) && Answered(c, path, args, verb, env, response)
    requires env.decode(response.body).NotArray?
    ensures var r := Call(c, path, args, verb, env);
      r.client == RecordResponse(c, path, response) && r.stored.None? && r.warnings == []
      && r.result == Err(Api(ApiException(Classify(response.status), StatusText(response.status), -1, response.status)))
  {
  }

  /** A non-empty errors list of real error objects: every error but the
      last becomes a warning, in order, and the last is thrown with the
      response status. */
  lemma CallRaisesLastError<P>(c: Client, path: Bytes, args: Pairs<PhpValue>, verb: Bytes, env: Services<P>, response: HttpResponse)
    requires UniqueKeys(args) && Answered(c, path, args, verb, env, response)
    requires env.decode(response.body).Structure?
    requires var errs := env.decode(response.body).data.errors;
      errs.Some? && errs.value != [] && forall i :: 0 <= i < |errs.value| ==> EntryTruthy(errs.value[i])
    ensures var r := Call(c, path, args, verb, env);
      var errs := env.decode(response.body).data.errors.value;
      r.stored.None? && r.warnings == Warnings(errs[..|errs| - 1])
      && r.result == Err(Api(Chuck(errs[|errs| - 1], response.status)))
      && r.client == RecordResponse(c, path, response)
  {
    var errs := env.decode(response.body).data.errors.value;
    DrainAllErrors(errs, response.status);
  }

  /** An errors list whose entry `i` is empty, after real errors: those
      errors become warnings, the data is returned with the entries after
      `i` left in its errors, the limits are recorded, and the data is
      stored exactly when caching applies. */
  lemma CallStopsAtEmpty<P>(c: Client, path: Bytes, args: Pairs<PhpValue>, verb: Bytes, env: Services<P>,
                            response: HttpResponse, i: nat)
    requires UniqueKeys(args) && Answered(c, path, args, verb, env, response)
    requires env.decode(response.body).Structure? && env.decode(response.body).data.errors.Some?
    requires var errs := env.decode(response.body).data.errors.value;
      i < |errs| && !EntryTruthy(errs[i]) && forall j :: 0 <= j < i ==> EntryTruthy(errs[j])
    ensures var r := Call(c, path, args, verb, env);
      var errs := env.decode(response.body).data.errors.value;
      var kept := env.decode(response.body).data.(errors := Some(errs[i + 1..]));
      var key := CallCacheKey(c, path, SanitizeArgs(args).value, verb, env);
      r.result == Ok(kept) && r.warnings == Warnings(errs[..i])
      && r.client == RecordResponse(c, path, response)
      && (r.stored.Some? <==> key.Some?)
      && (r.stored.Some? ==> r.stored.value == CacheEntry(key.value, kept, c.cache.value.ttl))
  {
    var errs := env.decode(response.body).data.errors.value;
    DrainStopsAtEmpty(errs, response.status, i);
  }

  /** An empty errors list: the data is returned as decoded, with no
      warning, and stored exactly when caching applies. */
  lemma CallEmptyErrors<P>(c: Client, path: Bytes, args: Pairs<PhpValue>, verb: Bytes, env: Services<P>, response: HttpResponse)
    requires UniqueKeys(args) && Answered(c, path, args, verb, env, response)
    requires env.decode(response.body).Structure? && env.decode(response.body).data.errors == Some([])
    ensures var r := Call(c, path, args, verb, env);
      var key := CallCacheKey(c, path, SanitizeArgs(args).value, verb, env);
      r.result == Ok(env.decode(response.body).data) && r.warnings == []
      && r.client == RecordResponse(c, path, response)
      && (r.stored.Some? <==> key.Some?)
      && (r.stored.Some? ==> r.stored.value == CacheEntry(key.value, env.decode(response.body).data, c.cache.value.ttl))
  {
  }

  /** Data without errors is returned as decoded and, for a cached GET,
      handed to the cache under the call's key. */
  lemma CallReturnsData<P>(c: Client, path: Bytes, args: Pairs<PhpValue>, verb: Bytes, env: Services<P>, response: HttpResponse)
    requires UniqueKeys(args) && Answered(c, path, args, verb, env, response)
    requires env.decode(response.body).Structure? && env.decode(response.body).data.errors.None?
    ensures var r := Call(c, path, args, verb, env);
      var key := CallCacheKey(c, path, SanitizeArgs(args).value, verb, env);
      r.result == Ok(env.decode(response.body).data) && r.warnings == []
      && r.client == RecordResponse(c, path, response)
      && (r.stored.Some? <==> key.Some?)
      && (r.stored.Some? ==> r.stored.value == CacheEntry(key.value, env.decode(response.body).data, c.cache.value.ttl))
  {
  }

  // ---------------------------------------------------------------------
  // last_rate_limit_*

  /** The endpoint asked about: `func` when truthy, else the last call
      (null reads as the empty key). */
  function SnapshotKey(c: Client, func: Bytes): Bytes
  {
    if Truthy(func) then func else c.lastCall.GetOr([])
  }

  function RateLimitData(c: Client, func: Bytes): Option<RateSnapshot>
  {
    var key := SnapshotKey(c, func);
    if key in c.lastRate then Some(c.lastRate[key]) else None
  }

  /** last_rate_limit_allowance: 0 when nothing is known. */
  function Allowance(c: Client, func: Bytes): (r: int)
    ensures RateLimitData(c, func).None? ==> r == 0
    ensures RateLimitData(c, func).Some? ==> r == RateLimitData(c, func).value.limit
  {
    match RateLimitData(c, func)
    case Some(snapshot) => snapshot.limit
    case None => 0
  }

  /** last_rate_limit_remaining: null when nothing is known. */
  function Remaining(c: Client, func: Bytes): (r: Option<int>)
    ensures r.None? <==> RateLimitData(c, func).None?
    ensures r.Some? ==> r.value == RateLimitData(c, func).value.remaining
  {
    match RateLimitData(c, func)
    case Some(snapshot) => Some(snapshot.remaining)
    case None => None
  }

  /** last_rate_limit_reset: null when nothing is known. */
  function Reset(c: Client, func: Bytes): (r: Option<int>)
    ensures r.None? <==> RateLimitData(c, func).None?
    ensures r.Some? ==> r.value == RateLimitData(c, func).value.reset
  {
    match RateLimitData(c, func)
    case Some(snapshot) => Some(snapshot.reset)
    case None => None
  }

  /** A fresh client knows no limits. */
  lemma FreshKnowsNoLimits(func: Bytes)
    ensures Allowance(Fresh, func) == 0 && Remaining(Fresh, func).None? && Reset(Fresh, func).None?
  {
  }

  /** After a response carrying the limit headers, the accessors with no
      argument, and with the path, read back the header values. */
  lemma RecordedLimitsReadBack(c: Client, path: Bytes, response: HttpResponse, func: Bytes)
    requires HasKey(response.headers, LimitHeader)
    requires func == [] || func == path
    ensures var r := RecordResponse(c, path, response);
      var h := response.headers;
      && Allowance(r, func) == IntCast(Get(h, LimitHeader).value)
      && Remaining(r, func) == Some(IntCast(Get(h, RemainingHeader).GetOr([])))
      && Reset(r, func) == Some(IntCast(Get(h, ResetHeader).GetOr([])))
  {
  }

  /** Recording one endpoint leaves what is known of the others. */
  lemma RecordKeepsOtherEndpoints(c: Client, path: Bytes, response: HttpResponse, func: Bytes)
    requires Truthy(func) && func != path
    ensures var r := RecordResponse(c, path, response);
      Allowance(r, func) == Allowance(c, func) && Remaining(r, func) == Remaining(c, func) && Reset(r, func) == Reset(c, func)
  {
  }

  lemma ExampleCasts()
    ensures var l: Bytes := "15"; var m: Bytes := "14";
      IntCast(l) == 15 && IntCast(m) == 14
  {
    var l: Bytes := "15";
    var m: Bytes := "14";
    assert NatToDecimal(1) == ['1'];
    assert NatToDecimal(15) == NatToDecimal(1) + [DigitByte(5)] == l;
    assert NatToDecimal(14) == NatToDecimal(1) + [DigitByte(4)] == m;
    IntCastReadsDecimal(15);
    IntCastReadsDecimal(14);
  }

  lemma ExampleHeaders(l: Bytes, m: Bytes, t: Bytes)
    ensures var h := [(LimitHeader, l), (RemainingHeader, m), (ResetHeader, t)];
      Get(h, LimitHeader) == Some(l) && Get(h, RemainingHeader) == Some(m) && Get(h, ResetHeader) == Some(t)
  {
    var h := [(LimitHeader, l), (RemainingHeader, m), (ResetHeader, t)];
    assert LimitHeader[13] != ResetHeader[13];
    assert h[1..][1..] == [(ResetHeader, t)];
    assert Get(h, ResetHeader) == Get(h[1..], ResetHeader) == Get(h[1..][1..], ResetHeader) == Some(t);
  }

  /** A response with limit=15, remaining=14, reset=1700000000 makes the
      accessors for its path report an allowance of 15 and 14 remaining. */
  lemma RateSnapshotExample(c: Client, path: Bytes, body: Bytes, status: int)
    ensures var l: Bytes := "15"; var m: Bytes := "14"; var t: Bytes := "1700000000";
      var r := RecordResponse(c, path, HttpResponse(body, status, [(LimitHeader, l), (RemainingHeader, m), (ResetHeader, t)]));
      Allowance(r, path) == 15 && Remaining(r, path) == Some(14)
  {
    var l: Bytes := "15";
    var m: Bytes := "14";
    var t: Bytes := "1700000000";
    var response := HttpResponse(body, status, [(LimitHeader, l), (RemainingHeader, m), (ResetHeader, t)]);
    ExampleHeaders(l, m, t);
    RecordedLimitsReadBack(c, path, response, path);
    ExampleCasts();
  }
}

=== FILE: key_sort.dfy ===
/** A key sort by byte order of the raw keys (strcmp), the order
    SORT_STRING on its own would select: a functional insertion sort by
    key under `ByteOrder.Below`
    on an array with one entry per key. This is the sort the signing
    model uses; the flags the client passes to ksort select the natural
    order instead (`NaturalOrder`), which agrees with this sort on keys
    with no digit and no white space. */
module KeySort {
  import opened Wrappers
  import opened Bytes
  import opened ByteOrder
  import opened PhpArray

  /** Keys strictly ascending in byte order. */
  predicate Ascending<V>(a: Pairs<V>)
  {
    forall i, j :: 0 <= i < j < |a| ==> Below(a[i].0, a[j].0)
  }

  lemma AscendingUnique<V>(a: Pairs<V>)
    requires Ascending(a)
    ensures UniqueKeys(a)
  {
    forall i, j | 0 <= i < j < |a|
      ensures a[i].0 != a[j].0
    {
      BelowIrreflexive(a[i].0);
    }
  }

  /** An entry below the first key of an ascending array can go in front. */
  lemma PrependAscending<V>(p: (Bytes, V), a: Pairs<V>)
    requires Ascending(a) && (a == [] || Below(p.0, a[0].0))
    ensures Ascending([p] + a)
  {
    var r := [p] + a;
    forall i, j | 0 <= i < j < |r|
      ensures Below(r[i].0, r[j].0)
    {
      assert r[j] == a[j - 1];
      if i > 0 {
        assert r[i] == a[i - 1];
      } else if j > 1 {
        BelowTransitive(p.0, a[0].0, a[j - 1].0);
      }
    }
  }

  lemma ConsBelowAll<V>(x: (Bytes, V), t: Pairs<V>)
    requires Ascending(t) && forall j :: 0 <= j < |t| ==> Below(x.0, t[j].0)
    ensures Ascending([x] + t)
  {
    var r := [x] + t;
    forall i, j | 0 <= i < j < |r|
      ensures Below(r[i].0, r[j].0)
    {
      assert r[j] == t[j - 1];
      if i > 0 {
        assert r[i] == t[i - 1];
      }
    }
  }

  /** The first key of `a` is below every key of the rest with `p` added. */
  lemma HeadBelowInsert<V>(p: (Bytes, V), a: Pairs<V>, t: Pairs<V>)
    requires Ascending(a) && a != [] && Below(a[0].0, p.0)
    requires multiset(t) == multiset(a[1..]) + multiset{p}
    ensures forall j :: 0 <= j < |t| ==> Below(a[0].0, t[j].0)
  {
    forall j | 0 <= j < |t|
      ensures Below(a[0].0, t[j].0)
    {
      assert t[j] in multiset(a[1..]) + multiset{p};
      if t[j] != p {
        assert t[j] in a[1..];
        var m :| 0 <= m < |a[1..]| && a[1..][m] == t[j];
        assert a[m + 1] == t[j];
      }
    }
  }

  /** Places `p` among the ascending entries of `a`, before the first key
      above its own. */
  function Insert<V>(p: (Bytes, V), a: Pairs<V>): (r: Pairs<V>)
    requires Ascending(a) && !HasKey(a, p.0)
    ensures Ascending(r)
    ensures multiset(r) == multiset(a) + multiset{p}
  {
    if a == [] then [p]
    else if Below(p.0, a[0].0) then
      PrependAscending(p, a);
      [p] + a
    else
      var t := Insert(p, a[1..]);
      assert a == [a[0]] + a[1..];
      BelowTotal(a[0].0, p.0);
      HeadBelowInsert(p, a, t);
      ConsBelowAll(a[0], t);
      [a[0]] + t
  }

  /** ksort: the entries of `a`, in ascending key order. */
  function KSort<V>(a: Pairs<V>): (r: Pairs<V>)
    requires UniqueKeys(a)
    ensures Ascending(r)
    ensures multiset(r) == multiset(a)
  {
    if a == [] then []
    else
      var t := KSort(a[1..]);
      assert a == [a[0]] + a[1..];
      assert !HasKey(t, a[0].0) by {
        forall m | 0 <= m < |t|
          ensures t[m].0 != a[0].0
        {
          assert t[m] in multiset(a[1..]);
        }
      }
      Insert(a[0], t)
  }

  /** The first key of an ascending array is at or below every key it holds. */
  lemma HeadIsLeast<V>(a: Pairs<V>, k: Bytes)
    requires Ascending(a) && HasKey(a, k)
    ensures a[0].0 == k || Below(a[0].0, k)
  {
    var m :| 0 <= m < |a| && a[m] == (k, Get(a, k).value);
  }

  /** Two ascending arrays with the same content are the same array. */
  lemma {:induction false} AscendingExtensional<V>(a: Pairs<V>, b: Pairs<V>)
    requires Ascending(a) && Ascending(b) && SameEntries(a, b)
    ensures a == b
    decreases |a|
  {
    AscendingUnique(a);
    AscendingUnique(b);
    if a == [] || b == [] {
      assert b != [] ==> Get(b, b[0].0).Some?;
      assert a != [] ==> Get(a, a[0].0).Some?;
    } else {
      HeadIsLeast(a, b[0].0);
      HeadIsLeast(b, a[0].0);
      BelowAntisymmetric(a[0].0, b[0].0);
      assert a[0].0 == b[0].0;
      GetEntry(a, 0);
      GetEntry(b, 0);
      assert a[0] == b[0];
      forall k
        ensures Get(a[1..], k) == Get(b[1..], k)
      {
        if k != a[0].0 {
          assert Get(a, k) == Get(a[1..], k);
          assert Get(b, k) == Get(b[1..], k);
        } else {
          assert Get(a[1..], k).None? by {
            forall m | 0 <= m < |a[1..]|
              ensures a[1..][m].0 != k
            {
              assert a[1..][m] == a[m + 1];
            }
          }
          assert Get(b[1..], k).None? by {
            forall m | 0 <= m < |b[1..]|
              ensures b[1..][m].0 != k
            {
              assert b[1..][m] == b[m + 1];
            }
          }
        }
      }
      AscendingExtensional(a[1..], b[1..]);
      assert a == [a[0]] + a[1..] && b == [b[0]] + b[1..];
    }
  }

  /** Sorting forgets insertion order: arrays with the same content sort to
      the same array. */
  lemma KSortOrderIndependent<V>(a: Pairs<V>, b: Pairs<V>)
    requires UniqueKeys(a) && UniqueKeys(b) && SameEntries(a, b)
    ensures KSort(a) == KSort(b)
  {
    var sa, sb := KSort(a), KSort(b);
    AscendingUnique(sa);
    AscendingUnique(sb);
    PermutationSameEntries(sa, a);
    PermutationSameEntries(sb, b);
    AscendingExtensional(sa, sb);
  }

  /** Two entries with distinct keys: the one whose key is below goes first. */
  lemma KSortPair<V>(p: (Bytes, V), q: (Bytes, V))
    requires p.0 != q.0
    ensures UniqueKeys([p, q])
    ensures KSort([p, q]) == if Below(p.0, q.0) then [p, q] else [q, p]
  {
    assert [p, q][1..] == [q];
    assert KSort([q]) == [q];
    BelowTotal(p.0, q.0);
  }
}

=== FILE: natural_order.dfy ===
/** PHP's natural-order comparison `strnatcmp_ex`, case-sensitive, and the
    stable key sort ksort performs with it. ksort compares keys this way
    when its flags come to SORT_NATURAL (6), which is what
    `SORT_STRING | SORT_ASC` (2 | 4) adds up to. The comparison skips
    white space, skips leading zeros at the very start, and compares runs
    of digits by numeric magnitude; everywhere else it compares bytes as
    unsigned numbers. On keys with no digit and no white space it is
    exactly the byte order of `ByteOrder.Below`. */
module NaturalOrder {
  import opened Bytes
  import opened ByteOrder
  import opened PhpArray
  import opened KeySort

  /** C's isspace() in the C locale. */
  predicate IsCSpace(b: Byte)
  {
    b == ' ' || b == '\t' || b == '\n' || b as int == 11 || b as int == 12 || b == '\r'
  }

  /** The byte at `i`, or the NUL that terminates every PHP string. */
  function At(s: Bytes, i: nat): Byte
  {
    if i < |s| then s[i] else '\0'
  }

  /** isdigit() of the byte at `i`, with the end of the string a non-digit. */
  predicate DigitAt(s: Bytes, i: nat)
  {
    i < |s| && IsDigit(s[i])
  }

  /** The leading-zero skip of the first round: a '0' followed by a digit
      is passed over. */
  function SkipLeadingZeros(s: Bytes, i: nat): (r: nat)
    requires i < |s|
    ensures i <= r < |s|
    decreases |s| - i
  {
    if s[i] == '0' && i + 1 < |s| && IsDigit(s[i + 1]) then SkipLeadingZeros(s, i + 1) else i
  }

  /** The skip over consecutive white space; it stops at the end, where
      the terminating NUL is not a space. */
  function SkipCSpace(s: Bytes, i: nat): (r: nat)
    requires i <= |s|
    ensures i <= r <= |s|
    ensures r < |s| ==> !IsCSpace(s[r])
    decreases |s| - i
  {
    if i < |s| && IsCSpace(s[i]) then SkipCSpace(s, i + 1) else i
  }

  /** compare_right: two digit runs without a leading zero. The longer run
      wins; at equal length the first differing digit decides, remembered
      in `bias`. Also gives the positions reached. */
  function CompareRight(a: Bytes, i: nat, b: Bytes, j: nat, bias: int): (r: (int, nat, nat))
    requires i <= |a| && j <= |b|
    ensures r.1 <= |a| && r.2 <= |b| && i <= r.1
    decreases |a| - i
  {
    if !DigitAt(a, i) && !DigitAt(b, j) then (bias, i, j)
    else if !DigitAt(a, i) then (-1, i, j)
    else if !DigitAt(b, j) then (1, i, j)
    else
      var next := if bias != 0 then bias else if a[i] < b[j] then -1 else if a[i] > b[j] then 1 else 0;
      CompareRight(a, i + 1, b, j + 1, next)
  }

  /** compare_left: digit runs where one starts with '0', read as
      fractions: the first differing digit decides. */
  function CompareLeft(a: Bytes, i: nat, b: Bytes, j: nat): (r: (int, nat, nat))
    requires i <= |a| && j <= |b|
    ensures r.1 <= |a| && r.2 <= |b| && i <= r.1
    decreases |a| - i
  {
    if !DigitAt(a, i) && !DigitAt(b, j) then (0, i, j)
    else if !DigitAt(a, i) then (-1, i, j)
    else if !DigitAt(b, j) then (1, i, j)
    else if a[i] < b[j] then (-1, i, j)
    else if a[i] > b[j] then (1, i, j)
    else CompareLeft(a, i + 1, b, j + 1)
  }

  /** One round of the main loop from positions `i` and `j`: skip white
      space, compare digit runs when both sides have one, then compare
      one byte. */
  function Round(a: Bytes, i: nat, b: Bytes, j: nat): int
    requires i < |a| && j < |b|
    decreases |a| - i, 1
  {
    var i1 := SkipCSpace(a, i);
    var j1 := SkipCSpace(b, j);
    if DigitAt(a, i1) && DigitAt(b, j1) then
      var run := if a[i1] == '0' || b[j1] == '0' then CompareLeft(a, i1, b, j1) else CompareRight(a, i1, b, j1, 0);
      if run.0 != 0 then run.0
      else if run.1 == |a| && run.2 == |b| then 0
      else if run.1 == |a| then -1
      else if run.2 == |b| then 1
      else ByteStep(a, run.1, b, run.2)
    else ByteStep(a, i1, b, j1)
  }

  /** The byte comparison that ends a round, and the step to the next. */
  function ByteStep(a: Bytes, i: nat, b: Bytes, j: nat): int
    requires i <= |a| && j <= |b|
    decreases |a| - i, 0
  {
    if At(a, i) < At(b, j) then -1
    else if At(a, i) > At(b, j) then 1
    else if i + 1 >= |a| && j + 1 >= |b| then 0
    else if i + 1 >= |a| then -1
    else if j + 1 >= |b| then 1
    else Round(a, i + 1, b, j + 1)
  }

  /** strnatcmp_ex(a, b, case-sensitive): negative, zero or positive as
      `a` sorts before, with, or after `b`. An empty string is compared
      by length alone. */
  function NatCompare(a: Bytes, b: Bytes): int
  {
    if |a| == 0 || |b| == 0 then (if |a| == |b| then 0 else if |a| > |b| then 1 else -1)
    else Round(a, SkipLeadingZeros(a, 0), b, SkipLeadingZeros(b, 0))
  }

  /** Places `p` before the first entry whose key it does not sort after:
      `p` came earlier, so ties keep it first, as PHP 8's stable sort does. */
  function NatInsert<V>(p: (Bytes, V), a: Pairs<V>): (r: Pairs<V>)
    ensures multiset(r) == multiset(a) + multiset{p}
  {
    if a == [] then [p]
    else if NatCompare(p.0, a[0].0) <= 0 then [p] + a
    else
      assert a == [a[0]] + a[1..];
      [a[0]] + NatInsert(p, a[1..])
  }

  /** ksort($a, SORT_NATURAL): a stable insertion sort by NatCompare. */
  function NaturalKSort<V>(a: Pairs<V>): (r: Pairs<V>)
    ensures multiset(r) == multiset(a)
  {
    if a == [] then []
    else
      assert a == [a[0]] + a[1..];
      NatInsert(a[0], NaturalKSort(a[1..]))
  }

  // ---------------------------------------------------------------------
  // Agreement with byte order on keys without digits or white space

  /** A key with no ASCII digit and no white space: every `oauth_*` key. */
  predicate Plain(s: Bytes)
  {
    forall i :: 0 <= i < |s| ==> !IsDigit(s[i]) && !IsCSpace(s[i])
  }

  predicate PlainKeys<V>(a: Pairs<V>)
  {
    forall i :: 0 <= i < |a| ==> Plain(a[i].0)
  }

  /** Assignment by a plain key keeps every key plain. */
  lemma PutPlain<V>(a: Pairs<V>, k: Bytes, v: V)
    requires PlainKeys(a) && Plain(k)
    ensures PlainKeys(Put(a, k, v))
  {
  }

  /** unset keeps every key plain. */
  lemma RemovePlain<V>(a: Pairs<V>, k: Bytes)
    requires PlainKeys(a)
    ensures PlainKeys(Remove(a, k))
  {
    var r := Remove(a, k);
    forall i | 0 <= i < |r|
      ensures Plain(r[i].0)
    {
      var j :| 0 <= j < |a| && a[j] == r[i];
    }
  }

  /** strcmp's sign under byte order. */
  function ByteCompare(a: Bytes, b: Bytes): int
  {
    if a == b then 0 else if Below(a, b) then -1 else 1
  }

  lemma BelowStep(a: Bytes, b: Bytes, i: nat)
    requires i < |a| && i < |b| && a[i] == b[i]
    ensures Below(a[i..], b[i..]) == Below(a[i + 1..], b[i + 1..])
    ensures (a[i..] == b[i..]) == (a[i + 1..] == b[i + 1..])
  {
    assert a[i..][1..] == a[i + 1..] && b[i..][1..] == b[i + 1..];
    assert a[i..] == [a[i]] + a[i + 1..] && b[i..] == [b[i]] + b[i + 1..];
  }

  /** From a common position on plain keys, a round compares the rest by
      byte order. */
  lemma {:induction false} RoundOnPlain(a: Bytes, b: Bytes, i: nat)
    requires Plain(a) && Plain(b) && i < |a| && i < |b|
    ensures Round(a, i, b, i) == ByteCompare(a[i..], b[i..])
    decreases |a| - i
  {
    assert SkipCSpace(a, i) == i && SkipCSpace(b, i) == i;
    assert Round(a, i, b, i) == ByteStep(a, i, b, i);
    if a[i] != b[i] {
      assert a[i..][0] == a[i] && b[i..][0] == b[i];
      assert a[i..] != b[i..];
    } else {
      BelowStep(a, b, i);
      if i + 1 < |a| && i + 1 < |b| {
        RoundOnPlain(a, b, i + 1);
      } else {
        assert a[i + 1..] == [] || b[i + 1..] == [];
      }
    }
  }

  /** On keys with no digit and no white space, natural order is byte
      order, and only equal keys tie. */
  lemma NatCompareOnPlain(a: Bytes, b: Bytes)
    requires Plain(a) && Plain(b)
    ensures NatCompare(a, b) == ByteCompare(a, b)
  {
    if |a| > 0 && |b| > 0 {
      assert SkipLeadingZeros(a, 0) == 0 && SkipLeadingZeros(b, 0) == 0;
      RoundOnPlain(a, b, 0);
      assert a[0..] == a && b[0..] == b;
    }
  }

  lemma {:induction false} NatInsertOnPlain<V>(p: (Bytes, V), a: Pairs<V>)
    requires Ascending(a) && !HasKey(a, p.0) && Plain(p.0) && PlainKeys(a)
    ensures NatInsert(p, a) == Insert(p, a)
  {
    if a != [] {
      NatCompareOnPlain(p.0, a[0].0);
      assert p.0 != a[0].0 by {
        assert Get(a, p.0).None?;
      }
      if !Below(p.0, a[0].0) {
        assert forall i :: 0 <= i < |a[1..]| ==> a[1..][i] == a[i + 1];
        NatInsertOnPlain(p, a[1..]);
      }
    }
  }

  /** On arrays whose keys have no digit and no white space, the code's
      natural-order ksort and the byte-order sort agree. */
  lemma {:induction false} NaturalKSortOnPlain<V>(a: Pairs<V>)
    requires UniqueKeys(a) && PlainKeys(a)
    ensures NaturalKSort(a) == KSort(a)
  {
    if a != [] {
      var tail := a[1..];
      assert forall i :: 0 <= i < |tail| ==> tail[i] == a[i + 1];
      assert UniqueKeys(tail);
      NaturalKSortOnPlain(tail);
      var t := KSort(tail);
      assert PlainKeys(t) by {
        forall i | 0 <= i < |t|
          ensures Plain(t[i].0)
        {
          assert t[i] in multiset(tail);
        }
      }
      assert !HasKey(t, a[0].0) by {
        forall m | 0 <= m < |t|
          ensures t[m].0 != a[0].0
        {
          assert t[m] in multiset(tail);
        }
      }
      NatInsertOnPlain(a[0], t);
    }
  }

  /** On such arrays the natural-order sort also forgets insertion order. */
  lemma NaturalKSortOrderIndependentOnPlain<V>(a: Pairs<V>, b: Pairs<V>)
    requires UniqueKeys(a) && UniqueKeys(b) && PlainKeys(a) && PlainKeys(b) && SameEntries(a, b)
    ensures NaturalKSort(a) == NaturalKSort(b)
  {
    NaturalKSortOnPlain(a);
    NaturalKSortOnPlain(b);
    KSortOrderIndependent(a, b);
  }

  // ---------------------------------------------------------------------
  // Where natural order departs from byte order

  /** Digit runs compare by magnitude: "a10" sorts after "a9". */
  lemma NatCompareDigitRuns()
    ensures var a10: Bytes := "a10";
      var a9: Bytes := "a9";
      NatCompare(a10, a9) > 0
  {
    var a10: Bytes := "a10";
    var a9: Bytes := "a9";
    assert SkipLeadingZeros(a10, 0) == 0 && SkipLeadingZeros(a9, 0) == 0;
    assert SkipCSpace(a10, 1) == 1 && SkipCSpace(a9, 1) == 1;
    assert CompareRight(a10, 2, a9, 2, -1) == (1, 2, 2);
    assert CompareRight(a10, 1, a9, 1, 0) == (1, 2, 2);
    assert Round(a10, 1, a9, 1) == 1;
    assert SkipCSpace(a10, 0) == 0 && SkipCSpace(a9, 0) == 0;
    assert Round(a10, 0, a9, 0) == 1;
  }

  /** Two entries: the second goes first exactly when it compares lower. */
  lemma NaturalKSortPair<V>(p: (Bytes, V), q: (Bytes, V))
    ensures NaturalKSort([p, q]) == if NatCompare(p.0, q.0) <= 0 then [p, q] else [q, p]
  {
    assert [p, q][1..] == [q];
    assert NaturalKSort([q]) == [q];
    assert NatInsert(p, [q]) == if NatCompare(p.0, q.0) <= 0 then [p, q] else [q] + NatInsert(p, []);
  }

  /** So the code signs a9 before a10, while byte order puts a10 first. */
  lemma NaturalSortDigitRuns(x: Bytes, y: Bytes)
    ensures var a10: Bytes := "a10";
      var a9: Bytes := "a9";
      && NaturalKSort([(a10, x), (a9, y)]) == [(a9, y), (a10, x)]
      && KSort([(a10, x), (a9, y)]) == [(a10, x), (a9, y)]
  {
    var a10: Bytes := "a10";
    var a9: Bytes := "a9";
    NatCompareDigitRuns();
    NaturalKSortPair((a10, x), (a9, y));
    assert Below(a10, a9) by {
      assert a10[0] == a9[0] && a10[1..] == "10" && a9[1..] == "9";
    }
    KSortPair((a10, x), (a9, y));
  }

  /** White space is skipped: "ab" and "a b" compare equal both ways. */
  lemma NatCompareSpaceTie()
    ensures var ab: Bytes := "ab";
      var spaced: Bytes := "a b";
      NatCompare(ab, spaced) == 0 && NatCompare(spaced, ab) == 0
  {
    var ab: Bytes := "ab";
    var spaced: Bytes := "a b";
    assert SkipLeadingZeros(ab, 0) == 0 && SkipLeadingZeros(spaced, 0) == 0;
    assert SkipCSpace(ab, 0) == 0 && SkipCSpace(spaced, 0) == 0;
    assert SkipCSpace(ab, 1) == 1 && SkipCSpace(spaced, 1) == 2;
    assert Round(ab, 1, spaced, 1) == ByteStep(ab, 1, spaced, 2) == 0;
    assert Round(ab, 0, spaced, 0) == ByteStep(ab, 0, spaced, 0) == 0;
    assert SkipCSpace(spaced, 2) == 2;
    assert Round(spaced, 1, ab, 1) == ByteStep(spaced, 2, ab, 1) == 0;
    assert Round(spaced, 0, ab, 0) == ByteStep(spaced, 0, ab, 0) == 0;
  }

  /** So "ab" and "a b" tie, and the stable sort keeps them in insertion
      order: the result depends on it. */
  lemma NaturalSortKeepsTies(x: Bytes, y: Bytes)
    ensures var ab: Bytes := "ab";
      var spaced: Bytes := "a b";
      && NatCompare(ab, spaced) == 0 && NatCompare(spaced, ab) == 0
      && NaturalKSort([(ab, x), (spaced, y)]) == [(ab, x), (spaced, y)]
      && NaturalKSort([(spaced, y), (ab, x)]) == [(spaced, y), (ab, x)]
  {
    var ab: Bytes := "ab";
    var spaced: Bytes := "a b";
    NatCompareSpaceTie();
    NaturalKSortPair((ab, x), (spaced, y));
    NaturalKSortPair((spaced, y), (ab, x));
  }
}

=== FILE: oauth_params.dfy ===
/** TwitterOAuthParams: the argument array of one request, the secrets
    that sign it, and the signing of section 3.4 of RFC 5849 (base string
    3.4.1, HMAC-SHA1 key 3.4.2) and the Authorization header of section
    3.5.1. HMAC-SHA1 and base64 are left abstract as `Crypto`. */
module OAuthParams {
  import opened Wrappers
  import opened Bytes
  import opened ByteOrder
  import opened PhpArray
  import opened KeySort
  import opened NaturalOrder
  import opened PercentEncoding
  import opened QueryString
  import opened OAuthToken

  /** The arguments, and the two secrets (null until set, which urlencode
      reads as ""). */
  datatype Params = Params(args: Pairs<Bytes>, consumerSecret: Bytes, tokenSecret: Bytes)

  predicate Valid(p: Params)
  {
    UniqueKeys(p.args)
  }

  const Version: Bytes := "oauth_version"
  const ConsumerKey: Bytes := "oauth_consumer_key"
  const TokenKey: Bytes := "oauth_token"
  const SignatureMethod: Bytes := "oauth_signature_method"
  const TimestampKey: Bytes := "oauth_timestamp"
  const NonceKey: Bytes := "oauth_nonce"
  const SignatureKey: Bytes := "oauth_signature"
  const HmacSha1: Bytes := "HMAC-SHA1"
  const OneZero: Bytes := "1.0"

  /** `$args + array('oauth_version' => '1.0')`: the caller's entries come
      first and win; the version is added last only when missing. */
  function New(args: Pairs<Bytes>): (p: Params)
    requires UniqueKeys(args)
    ensures Valid(p)
    ensures |p.args| >= |args| && p.args[..|args|] == args
    ensures Get(p.args, Version) == Some(Get(args, Version).GetOr(OneZero))
    ensures forall k :: k != Version ==> Get(p.args, k) == Get(args, k)
    ensures p.consumerSecret == [] && p.tokenSecret == []
  {
    if HasKey(args, Version) then Params(args, [], [])
    else
      PutUnique(args, Version, OneZero);
      Params(Put(args, Version, OneZero), [], [])
  }

  /** set_consumer: only `oauth_consumer_key` changes among the arguments;
      the consumer secret is kept for signing. */
  function SetConsumer(p: Params, consumer: Token): (r: Params)
    requires Valid(p)
    ensures Valid(r)
    ensures Get(r.args, ConsumerKey) == Some(consumer.key)
    ensures forall k :: k != ConsumerKey ==> Get(r.args, k) == Get(p.args, k)
    ensures r.consumerSecret == consumer.secret && r.tokenSecret == p.tokenSecret
  {
    PutUnique(p.args, ConsumerKey, consumer.key);
    p.(args := Put(p.args, ConsumerKey, consumer.key), consumerSecret := consumer.secret)
  }

  /** set_token: only `oauth_token` changes among the arguments; the token
      secret is kept for signing. */
  function SetToken(p: Params, token: Token): (r: Params)
    requires Valid(p)
    ensures Valid(r)
    ensures Get(r.args, TokenKey) == Some(token.key)
    ensures forall k :: k != TokenKey ==> Get(r.args, k) == Get(p.args, k)
    ensures r.tokenSecret == token.secret && r.consumerSecret == p.consumerSecret
  {
    PutUnique(p.args, TokenKey, token.key);
    p.(args := Put(p.args, TokenKey, token.key), tokenSecret := token.secret)
  }

  /** normalize with the byte-order sort of the raw keys (strcmp): the same
      entries, keys ascending in byte order. Values are strings here, so
      the sorting of array values never applies. `NormalizeAsWritten` is
      the natural-order sort the code's flags select. */
  function Normalize(p: Params): (r: Params)
    requires Valid(p)
    ensures Valid(r) && Ascending(r.args)
    ensures multiset(r.args) == multiset(p.args)
    ensures r.consumerSecret == p.consumerSecret && r.tokenSecret == p.tokenSecret
  {
    AscendingUnique(KSort(p.args));
    p.(args := KSort(p.args))
  }

  /** Normalising then serialising forgets insertion order. */
  lemma NormalizeOrderIndependent(p: Params, q: Params)
    requires Valid(p) && Valid(q) && SameEntries(p.args, q.args)
    ensures Serialize(Normalize(p).args) == Serialize(Normalize(q).args)
    ensures Normalize(p).args == Normalize(q).args
  {
    KSortOrderIndependent(p.args, q.args);
  }

  /** normalize as the code's flags have it: `SORT_STRING | SORT_ASC` is 6,
      SORT_NATURAL, so the keys go in natural order. */
  function NormalizeAsWritten(p: Params): (r: Params)
    ensures multiset(r.args) == multiset(p.args)
    ensures r.consumerSecret == p.consumerSecret && r.tokenSecret == p.tokenSecret
  {
    p.(args := NaturalKSort(p.args))
  }

  /** With no digit and no white space in any key, the code's normalize
      and the byte-order one agree. */
  lemma NormalizeAsWrittenOnPlainKeys(p: Params)
    requires Valid(p) && PlainKeys(p.args)
    ensures NormalizeAsWritten(p) == Normalize(p)
  {
    NaturalKSortOnPlain(p.args);
  }

  /** Section 3.4.1.3.2 of RFC 5849 sorts the encoded names, while the code
      sorts raw keys and encodes them later. On keys made of unreserved
      bytes encoding changes nothing, so the two orders agree. */
  lemma EncodedOrderOnUnreserved(a: Bytes, b: Bytes)
    requires forall i :: 0 <= i < |a| ==> IsUnreserved(a[i])
    requires forall i :: 0 <= i < |b| ==> IsUnreserved(b[i])
    ensures Below(Encode(a), Encode(b)) <==> Below(a, b)
  {
    EncodeIdentityIff(a);
    EncodeIdentityIff(b);
  }

  /** A reserved byte separates the orders: `aZ` sorts before `a{` as raw
      keys, but `a{` encodes to `a%7B`, which sorts before `aZ`. */
  lemma EncodedOrderDiffersOnReserved()
    ensures Below("aZ", "a{")
    ensures Encode("a{") == "a%7B" && Encode("aZ") == "aZ"
    ensures Below(Encode("a{"), Encode("aZ"))
  {
    EncodeIdentityIff("aZ");
    EncodeIdentityIff("a");
    EncodedBrace();
    EncodeBytewise("a", "{", '{');
    assert "a" + "{" == "a{";
  }

  lemma EncodedBrace()
    ensures Encode("{") == "%7B"
  {
  }

  // ---------------------------------------------------------------------
  // sign_hmac

  /** hash_hmac('sha1', data, key, true), and base64_encode. */
  datatype Crypto = Crypto(hmacSha1: (Bytes, Bytes) -> Bytes, base64: Bytes -> Bytes)

  function Signature(crypto: Crypto, base: Bytes, key: Bytes): Bytes
  {
    crypto.base64(crypto.hmacSha1(base, key))
  }

  /** sprintf('%u', time()). */
  function Timestamp(time: int): Bytes
  {
    NatToDecimal(U64(time))
  }

  lemma KeysDistinct()
    ensures SignatureMethod != TimestampKey && SignatureMethod != NonceKey && SignatureMethod != SignatureKey
    ensures TimestampKey != NonceKey && TimestampKey != SignatureKey && NonceKey != SignatureKey
  {
  }

  /** What a prepared key reads as. */
  function PreparedValue(args: Pairs<Bytes>, timestamp: Bytes, nonce: Bytes, k: Bytes): Option<Bytes>
  {
    if k == SignatureMethod then Some(HmacSha1)
    else if k == TimestampKey then Some(timestamp)
    else if k == NonceKey then Some(nonce)
    else if k == SignatureKey then None
    else Get(args, k)
  }

  /** The arguments once sign_hmac has set the verb, timestamp and nonce
      and dropped any earlier signature: the signature method is HMAC-SHA1,
      timestamp and nonce are set, no signature is left, every other key
      reads as before, and the keys stay distinct. */
  function Prepare(args: Pairs<Bytes>, timestamp: Bytes, nonce: Bytes): (r: Pairs<Bytes>)
    ensures forall k :: Get(r, k) == PreparedValue(args, timestamp, nonce, k)
    ensures UniqueKeys(args) ==> UniqueKeys(r)
  {
    var a1 := Put(args, SignatureMethod, HmacSha1);
    var a2 := Put(a1, TimestampKey, timestamp);
    var a3 := Put(a2, NonceKey, nonce);
    var r := Remove(a3, SignatureKey);
    assert forall k :: Get(r, k) == PreparedValue(args, timestamp, nonce, k) by {
      forall k
        ensures Get(r, k) == PreparedValue(args, timestamp, nonce, k)
      {
        PutReads(args, SignatureMethod, HmacSha1, k);
        PutReads(a1, TimestampKey, timestamp, k);
        PutReads(a2, NonceKey, nonce, k);
        RemoveReads(a3, SignatureKey, k);
        KeysDistinct();
      }
    }
    if UniqueKeys(args) then
      PutUnique(args, SignatureMethod, HmacSha1);
      PutUnique(a1, TimestampKey, timestamp);
      PutUnique(a2, NonceKey, nonce);
      RemoveUnique(a3, SignatureKey);
      r
    else r
  }

  /** The keys sign_hmac sets are plain, so with plain caller keys the
      code's natural-order sort of the prepared arguments is the byte-order
      sort SignHmac signs. */
  lemma PreparedSortOnPlainKeys(args: Pairs<Bytes>, timestamp: Bytes, nonce: Bytes)
    requires UniqueKeys(args) && PlainKeys(args)
    ensures UniqueKeys(Prepare(args, timestamp, nonce))
    ensures NaturalKSort(Prepare(args, timestamp, nonce)) == KSort(Prepare(args, timestamp, nonce))
  {
    PreparePlain(args, timestamp, nonce);
    NaturalKSortOnPlain(Prepare(args, timestamp, nonce));
  }

  lemma SignKeysPlain()
    ensures Plain(SignatureMethod) && Plain(TimestampKey) && Plain(NonceKey)
  {
  }

  lemma PreparePlain(args: Pairs<Bytes>, timestamp: Bytes, nonce: Bytes)
    requires PlainKeys(args)
    ensures PlainKeys(Prepare(args, timestamp, nonce))
  {
    SignKeysPlain();
    var a1 := Put(args, SignatureMethod, HmacSha1);
    PutPlain(args, SignatureMethod, HmacSha1);
    var a2 := Put(a1, TimestampKey, timestamp);
    PutPlain(a1, TimestampKey, timestamp);
    var a3 := Put(a2, NonceKey, nonce);
    PutPlain(a2, NonceKey, nonce);
    RemovePlain(a3, SignatureKey);
  }

  /** The signature base string: upper-cased method, encoded URL, encoded
      query of the normalised arguments, joined by '&'. */
  function BaseString(verb: Bytes, url: Bytes, sorted: Pairs<Bytes>): Bytes
  {
    ToUpper(verb) + "&" + Encode(url) + "&" + Encode(Serialize(sorted))
  }

  /** The HMAC-SHA1 key: both secrets encoded, joined by '&'. */
  function SigningKey(p: Params): Bytes
  {
    Encode(p.consumerSecret) + "&" + Encode(p.tokenSecret)
  }

  /** The sorted prepared arguments have distinct keys and no signature. */
  lemma SortedLacksSignature(args: Pairs<Bytes>, timestamp: Bytes, nonce: Bytes)
    requires UniqueKeys(args)
    ensures UniqueKeys(Prepare(args, timestamp, nonce))
    ensures var sorted := KSort(Prepare(args, timestamp, nonce));
      UniqueKeys(sorted) && Get(sorted, SignatureKey).None?
  {
    var prepared := Prepare(args, timestamp, nonce);
    var sorted := KSort(prepared);
    AscendingUnique(sorted);
    PermutationSameEntries(sorted, prepared);
  }

  /** sign_hmac(verb, url) at clock reading `time` with nonce `nonce`. */
  function SignHmac(p: Params, verb: Bytes, url: Bytes, time: int, nonce: Bytes, crypto: Crypto): (r: Params)
    requires Valid(p)
    ensures Valid(r)
    ensures r.consumerSecret == p.consumerSecret && r.tokenSecret == p.tokenSecret
    ensures |r.args| > 0
    ensures Ascending(r.args[..|r.args| - 1])
    ensures multiset(r.args[..|r.args| - 1]) == multiset(Prepare(p.args, Timestamp(time), nonce))
    ensures r.args[|r.args| - 1] ==
      (SignatureKey, Signature(crypto, BaseString(verb, url, r.args[..|r.args| - 1]), SigningKey(p)))
  {
    SortedLacksSignature(p.args, Timestamp(time), nonce);
    Signed(p, verb, url, KSort(Prepare(p.args, Timestamp(time), nonce)), crypto)
  }

  /** The sorted arguments with `oauth_signature` appended, signed over
      their base string. */
  function Signed(p: Params, verb: Bytes, url: Bytes, sorted: Pairs<Bytes>, crypto: Crypto): (r: Params)
    requires UniqueKeys(sorted) && Get(sorted, SignatureKey).None?
    ensures Valid(r)
    ensures r.consumerSecret == p.consumerSecret && r.tokenSecret == p.tokenSecret
    ensures |r.args| == |sorted| + 1 && r.args[..|sorted|] == sorted
    ensures r.args[|sorted|] == (SignatureKey, Signature(crypto, BaseString(verb, url, sorted), SigningKey(p)))
  {
    AppendUnique(sorted, SignatureKey, Signature(crypto, BaseString(verb, url, sorted), SigningKey(p)));
    WithSignature(p, verb, url, sorted, crypto)
  }

  /** `sorted` with `oauth_signature` appended, whatever its keys. */
  function WithSignature(p: Params, verb: Bytes, url: Bytes, sorted: Pairs<Bytes>, crypto: Crypto): (r: Params)
    ensures r.consumerSecret == p.consumerSecret && r.tokenSecret == p.tokenSecret
    ensures |r.args| == |sorted| + 1 && r.args[..|sorted|] == sorted
    ensures r.args[|sorted|] == (SignatureKey, Signature(crypto, BaseString(verb, url, sorted), SigningKey(p)))
  {
    var signed := sorted + [(SignatureKey, Signature(crypto, BaseString(verb, url, sorted), SigningKey(p)))];
    assert signed[..|sorted|] == sorted;
    p.(args := signed)
  }

  /** sign_hmac as the code's flags have it: the prepared arguments go in
      natural key order, and the signature is appended over their base
      string. */
  function SignHmacAsWritten(p: Params, verb: Bytes, url: Bytes, time: int, nonce: Bytes, crypto: Crypto): (r: Params)
    ensures r.consumerSecret == p.consumerSecret && r.tokenSecret == p.tokenSecret
    ensures |r.args| == |Prepare(p.args, Timestamp(time), nonce)| + 1
    ensures multiset(r.args[..|r.args| - 1]) == multiset(Prepare(p.args, Timestamp(time), nonce))
    ensures r.args[|r.args| - 1] ==
      (SignatureKey, Signature(crypto, BaseString(verb, url, r.args[..|r.args| - 1]), SigningKey(p)))
  {
    var prepared := Prepare(p.args, Timestamp(time), nonce);
    var sorted := NaturalKSort(prepared);
    assert |sorted| == |prepared| by {
      assert |multiset(sorted)| == |multiset(prepared)|;
    }
    WithSignature(p, verb, url, sorted, crypto)
  }

  /** With no digit and no white space in any caller key, the code's
      signing and the byte-order one produce the same arguments. */
  lemma SignHmacAsWrittenOnPlainKeys(p: Params, verb: Bytes, url: Bytes, time: int, nonce: Bytes, crypto: Crypto)
    requires Valid(p) && PlainKeys(p.args)
    ensures SignHmacAsWritten(p, verb, url, time, nonce, crypto) == SignHmac(p, verb, url, time, nonce, crypto)
  {
    PreparedSortOnPlainKeys(p.args, Timestamp(time), nonce);
  }

  /** Setting the version, the consumer key and the token keeps the keys
      plain. */
  lemma TokensKeepPlain(args: Pairs<Bytes>, consumer: Token, token: Token)
    requires UniqueKeys(args) && PlainKeys(args)
    ensures PlainKeys(SetToken(SetConsumer(New(args), consumer), token).args)
  {
    assert Plain(Version) && Plain(ConsumerKey) && Plain(TokenKey);
    PutPlain(args, Version, OneZero);
    var p := New(args);
    PutPlain(p.args, ConsumerKey, consumer.key);
    var q := SetConsumer(p, consumer);
    PutPlain(q.args, TokenKey, token.key);
  }

  /** After signing, the verb, timestamp and nonce read as set, and every
      argument outside those four fields reads as before. */
  lemma SignHmacFields(p: Params, verb: Bytes, url: Bytes, time: int, nonce: Bytes, crypto: Crypto, k: Bytes)
    requires Valid(p)
    ensures var r := SignHmac(p, verb, url, time, nonce, crypto);
      Get(r.args, k) ==
        if k == SignatureMethod then Some(HmacSha1)
        else if k == TimestampKey then Some(Timestamp(time))
        else if k == NonceKey then Some(nonce)
        else if k == SignatureKey then Some(r.args[|r.args| - 1].1)
        else Get(p.args, k)
  {
    var r := SignHmac(p, verb, url, time, nonce, crypto);
    var prepared := Prepare(p.args, Timestamp(time), nonce);
    var sorted := r.args[..|r.args| - 1];
    AscendingUnique(sorted);
    PermutationSameEntries(sorted, prepared);
    assert r.args == sorted + [r.args[|r.args| - 1]];
    if k == SignatureKey {
      GetEntry(r.args, |r.args| - 1);
    } else {
      GetAppend(sorted, SignatureKey, r.args[|r.args| - 1].1, k);
    }
  }

  /** Two arrays that read as prepared from arrays with the same entries
      have the same entries. */
  lemma PreparedSameEntries(a: Pairs<Bytes>, b: Pairs<Bytes>, pa: Pairs<Bytes>, pb: Pairs<Bytes>, timestamp: Bytes, nonce: Bytes)
    requires SameEntries(a, b)
    requires forall k :: Get(pa, k) == PreparedValue(a, timestamp, nonce, k)
    requires forall k :: Get(pb, k) == PreparedValue(b, timestamp, nonce, k)
    ensures SameEntries(pa, pb)
  {
    forall k
      ensures Get(pa, k) == Get(pb, k)
    {
      assert Get(a, k) == Get(b, k);
    }
  }

  /** The signature depends on the arguments' content, not their order. */
  lemma SignOrderIndependent(p: Params, q: Params, verb: Bytes, url: Bytes, time: int, nonce: Bytes, crypto: Crypto)
    requires Valid(p) && Valid(q) && SameEntries(p.args, q.args)
    requires p.consumerSecret == q.consumerSecret && p.tokenSecret == q.tokenSecret
    ensures SignHmac(p, verb, url, time, nonce, crypto) == SignHmac(q, verb, url, time, nonce, crypto)
  {
    var ts := Timestamp(time);
    PreparedSameEntries(p.args, q.args, Prepare(p.args, ts, nonce), Prepare(q.args, ts, nonce), ts, nonce);
    KSortOrderIndependent(Prepare(p.args, ts, nonce), Prepare(q.args, ts, nonce));
  }

  /** The key splits at its only '&' into the two encoded secrets, which
      decode back; with an empty token secret it ends in '&'. */
  lemma SigningKeyParts(p: Params)
    ensures SplitAt(SigningKey(p), '&') == (Encode(p.consumerSecret), Some(Encode(p.tokenSecret)))
    ensures PercentDecode(Encode(p.consumerSecret)) == Some(p.consumerSecret)
    ensures PercentDecode(Encode(p.tokenSecret)) == Some(p.tokenSecret)
    ensures p.tokenSecret == [] ==> SigningKey(p) == Encode(p.consumerSecret) + "&"
  {
    EncodeAvoids(p.consumerSecret, '&');
    assert SigningKey(p) == Encode(p.consumerSecret) + ['&'] + Encode(p.tokenSecret);
    SplitAtFirst(Encode(p.consumerSecret), '&', Encode(p.tokenSecret));
    DecodeEncode(p.consumerSecret);
    DecodeEncode(p.tokenSecret);
    if p.tokenSecret == [] {
      assert Encode([]) == [];
    }
  }

  /** Upper-casing adds no '&'. */
  lemma ToUpperAvoidsAmp(verb: Bytes)
    requires forall i :: 0 <= i < |verb| ==> verb[i] != '&'
    ensures forall i :: 0 <= i < |ToUpper(verb)| ==> ToUpper(verb)[i] != '&'
  {
    var m := ToUpper(verb);
    forall i | 0 <= i < |m|
      ensures m[i] != '&'
    {
      assert !IsLowerAlpha(verb[i]) ==> m[i] == verb[i];
    }
  }

  /** The three '&'-joined parts of a base string over query `q`. */
  lemma BaseStringSplits(verb: Bytes, url: Bytes, q: Bytes)
    requires forall i :: 0 <= i < |verb| ==> verb[i] != '&'
    ensures var tail := Encode(url) + "&" + Encode(q);
      && SplitAt(ToUpper(verb) + "&" + Encode(url) + "&" + Encode(q), '&') == (ToUpper(verb), Some(tail))
      && SplitAt(tail, '&') == (Encode(url), Some(Encode(q)))
  {
    ToUpperAvoidsAmp(verb);
    EncodeAvoids(url, '&');
    SplitAtTwice(ToUpper(verb), Encode(url), '&', Encode(q));
  }

  /** When the method holds no '&', the base string splits into the
      verb, the URL and the query, and the query reads back to the
      normalised arguments. */
  lemma BaseStringParts(verb: Bytes, url: Bytes, sorted: Pairs<Bytes>)
    requires forall i :: 0 <= i < |verb| ==> verb[i] != '&'
    ensures var b := BaseString(verb, url, sorted);
      && SplitAt(b, '&').0 == ToUpper(verb)
      && SplitAt(b, '&').1 == Some(Encode(url) + "&" + Encode(CanonicalQuery(sorted)))
      && SplitAt(SplitAt(b, '&').1.value, '&') == (Encode(url), Some(Encode(CanonicalQuery(sorted))))
      && PercentDecode(Encode(url)) == Some(url)
      && PercentDecode(Encode(CanonicalQuery(sorted))) == Some(CanonicalQuery(sorted))
      && ParseQuery(CanonicalQuery(sorted)) == Some(sorted)
  {
    var q := CanonicalQuery(sorted);
    SerializeIsCanonical(sorted);
    BaseStringSplits(verb, url, q);
    DecodeEncode(url);
    DecodeEncode(q);
    ParseCanonicalQuery(sorted);
  }

  // ---------------------------------------------------------------------
  // oauth_header

  function HeaderItem(e: (Bytes, Bytes)): Bytes
  {
    Encode(e.0) + "=\"" + Encode(e.1) + "\""
  }

  /** What oauth_header puts between two items. */
  const ItemSeparator: Bytes := ",\n "

  function HeaderItems(args: Pairs<Bytes>): Bytes
  {
    if args == [] then []
    else if |args| == 1 then HeaderItem(args[0])
    else HeaderItem(args[0]) + ItemSeparator + HeaderItems(args[1..])
  }

  /** oauth_header: "OAuth " and every argument as enc(k)="enc(v)", in
      array order, joined by ",\n ". */
  function OAuthHeader(p: Params): (r: Bytes)
    ensures |r| >= 6 && r[..6] == "OAuth "
    ensures ParseHeader(r) == Some(p.args)
  {
    HeaderParses(p.args);
    "OAuth " + HeaderItems(p.args)
  }

  lemma HeaderParses(args: Pairs<Bytes>)
    ensures var h := "OAuth " + HeaderItems(args);
      |h| >= 6 && h[..6] == "OAuth " && ParseHeader(h) == Some(args)
  {
    var h := "OAuth " + HeaderItems(args);
    assert h[..6] == "OAuth " && h[6..] == HeaderItems(args);
    if args != [] {
      ParseHeaderItemsRoundTrip(args);
      assert |HeaderItem(args[0])| > 0;
      assert |HeaderItems(args)| > 0;
    }
  }

  /** Reads `k="v",\n k="v"...`, decoding keys and values. */
  function ParseHeaderItems(s: Bytes): Option<Pairs<Bytes>>
    decreases |s|
  {
    var kv := SplitAt(s, '=');
    if kv.1.None? || kv.1.value == [] || kv.1.value[0] != '"' then None
    else
      var vr := SplitAt(kv.1.value[1..], '"');
      if vr.1.None? then None
      else
        match (PercentDecode(kv.0), PercentDecode(vr.0))
        case (Some(k), Some(v)) =>
          var rest := vr.1.value;
          if rest == [] then Some([(k, v)])
          else if |rest| > 3 && rest[..3] == ItemSeparator then
            match ParseHeaderItems(rest[3..])
            case Some(more) => Some([(k, v)] + more)
            case None => None
          else None
        case _ => None
  }

  function ParseHeader(h: Bytes): Option<Pairs<Bytes>>
  {
    if |h| < 6 || h[..6] != "OAuth " then None
    else if h == "OAuth " then Some([])
    else ParseHeaderItems(h[6..])
  }

  lemma HeaderItemParts(e: (Bytes, Bytes), rest: Bytes)
    ensures var s := HeaderItem(e) + rest;
      && SplitAt(s, '=') == (Encode(e.0), Some("\"" + Encode(e.1) + "\"" + rest))
      && SplitAt(("\"" + Encode(e.1) + "\"" + rest)[1..], '"') == (Encode(e.1), Some(rest))
  {
    var ek, ev := Encode(e.0), Encode(e.1);
    EncodeAvoids(e.0, '=');
    EncodeAvoids(e.1, '"');
    assert HeaderItem(e) + rest == ek + ['='] + ("\"" + ev + "\"" + rest);
    SplitAtFirst(ek, '=', "\"" + ev + "\"" + rest);
    assert ("\"" + ev + "\"" + rest)[1..] == ev + ['"'] + rest;
    SplitAtFirst(ev, '"', rest);
  }

  /** One item, then whatever follows it. */
  lemma ParseHeaderItemsStep(e: (Bytes, Bytes), rest: Bytes)
    ensures ParseHeaderItems(HeaderItem(e) + rest) ==
      if rest == [] then Some([e])
      else if |rest| > 3 && rest[..3] == ItemSeparator then
        match ParseHeaderItems(rest[3..])
        case Some(more) => Some([e] + more)
        case None => None
      else None
  {
    HeaderItemParts(e, rest);
    DecodeEncode(e.0);
    DecodeEncode(e.1);
  }

  /** A lone item. */
  lemma ParseHeaderItemsSingle(e: (Bytes, Bytes))
    ensures ParseHeaderItems(HeaderItem(e)) == Some([e])
  {
    ParseHeaderItemsStep(e, []);
    assert HeaderItem(e) + [] == HeaderItem(e);
  }

  lemma {:induction false} ParseHeaderItemsRoundTrip(args: Pairs<Bytes>)
    requires args != []
    ensures ParseHeaderItems(HeaderItems(args)) == Some(args)
  {
    if |args| == 1 {
      ParseHeaderItemsSingle(args[0]);
      assert args == [args[0]];
    } else {
      ParseHeaderItemsRoundTrip(args[1..]);
      ParseHeaderItemsCons(args);
      assert args == [args[0]] + args[1..];
    }
  }

  /** The step of the round trip: the first item, then the parse of the rest. */
  lemma ParseHeaderItemsCons(args: Pairs<Bytes>)
    requires |args| > 1
    ensures ParseHeaderItems(HeaderItems(args)) ==
      match ParseHeaderItems(HeaderItems(args[1..]))
      case Some(more) => Some([args[0]] + more)
      case None => None
  {
    var tail := HeaderItems(args[1..]);
    var rest := ItemSeparator + tail;
    assert HeaderItems(args) == HeaderItem(args[0]) + rest;
    assert |HeaderItem(args[1])| > 0;
    assert rest[..3] == ItemSeparator && rest[3..] == tail;
    ParseHeaderItemsStep(args[0], rest);
  }
}

=== FILE: oauth_token.dfy ===
/** TwitterOAuthToken: a key and a secret; the key may not be empty. */
module OAuthToken {
  import opened Wrappers
  import opened Bytes

  datatype Token = Token(key: Bytes, secret: Bytes, verifier: Bytes)

  const KeyRequired: Bytes := "Invalid OAuth token - " + "Key required even if secret is empty"

  /** The constructor: refuses a key PHP reads as false ("" or "0"),
      keeps the secret as given (possibly empty), starts with no verifier. */
  function NewToken(key: Bytes, secret: Bytes): (r: Result<Token, Bytes>)
    ensures r.Ok? <==> key != [] && key != "0"
    ensures r.Ok? ==> r.value.key == key && r.value.secret == secret && r.value.verifier == []
    ensures r.Err? ==> r.error == KeyRequired
  {
    if !Truthy(key) then Err(KeyRequired) else Ok(Token(key, secret, []))
  }
}

=== FILE: percent_encoding.dfy ===
/** Percent-encoding as the client does it. PHP gives two encoders:
    rawurlencode (section 2.1 of RFC 3986, unreserved set of section 2.3)
    and urlencode (HTML form encoding: space as '+', '~' escaped). The
    client's own `urlencode` post-processes rawurlencode, replacing "%7E"
    by "~"; section 3.6 of RFC 5849 asks for exactly the RFC 3986 form. */
module PercentEncoding {
  import opened Wrappers
  import opened Bytes

  /** The unreserved characters of section 2.3 of RFC 3986. */
  predicate IsUnreserved(b: Byte)
  {
    IsAlnum(b) || b == '-' || b == '.' || b == '_' || b == '~'
  }

  predicate IsUpperHex(b: Byte)
  {
    IsDigit(b) || 'A' <= b <= 'F'
  }

  predicate IsHexDigit(b: Byte)
  {
    IsUpperHex(b) || 'a' <= b <= 'f'
  }

  function HexDigit(n: nat): (r: Byte)
    requires n < 16
    ensures IsUpperHex(r)
  {
    if n < 10 then ('0' as int + n) as char else ('A' as int + n - 10) as char
  }

  function HexValue(b: Byte): (n: nat)
    requires IsHexDigit(b)
    ensures n < 16
  {
    if IsDigit(b) then b as int - '0' as int
    else if 'A' <= b <= 'F' then b as int - 'A' as int + 10
    else b as int - 'a' as int + 10
  }

  lemma HexRoundTrip(n: nat)
    requires n < 16
    ensures HexValue(HexDigit(n)) == n
  {
  }

  /** "%XY", X and Y the upper-case hex digits of the byte. */
  function Escape(b: Byte): Bytes
  {
    ['%', HexDigit(b as int / 16), HexDigit(b as int % 16)]
  }

  /** rawurlencode of one byte (PHP 5.3 and later leave '~' alone). */
  function RawByte(b: Byte): Bytes
  {
    if IsUnreserved(b) then [b] else Escape(b)
  }

  /** PHP rawurlencode. */
  function RawUrlEncode(s: Bytes): Bytes
  {
    if s == [] then [] else RawByte(s[0]) + RawUrlEncode(s[1..])
  }

  /** urlencode of one byte: space becomes '+', and '~' is escaped. */
  function FormByte(b: Byte): Bytes
  {
    if b == ' ' then "+"
    else if IsAlnum(b) || b == '-' || b == '.' || b == '_' then [b]
    else Escape(b)
  }

  /** PHP urlencode, which http_build_query applies to keys and values. */
  function FormUrlEncode(s: Bytes): Bytes
  {
    if s == [] then [] else FormByte(s[0]) + FormUrlEncode(s[1..])
  }

  /** PHP str_replace with one search string: every occurrence of `pat`,
      scanning left to right without overlap, becomes `rep`. */
  function ReplaceAll(s: Bytes, pat: Bytes, rep: Bytes): Bytes
    requires |pat| > 0
    decreases |s|
  {
    if |s| == 0 then []
    else if |pat| <= |s| && s[..|pat|] == pat then rep + ReplaceAll(s[|pat|..], pat, rep)
    else [s[0]] + ReplaceAll(s[1..], pat, rep)
  }

  /** TwitterOAuthParams::urlencode. The "%7E" replacement never fires:
      the client's encoder is exactly rawurlencode, that is RFC 3986
      percent-encoding. */
  function Encode(s: Bytes): Bytes
  {
    ReplaceAll(RawUrlEncode(s), "%7E", "~")
  }

  lemma EncodeIsRawUrlEncode(s: Bytes)
    ensures Encode(s) == RawUrlEncode(s)
  {
    TildeAfterRaw(s, []);
    assert RawUrlEncode(s) + [] == RawUrlEncode(s);
  }

  /** What section 3.6 of RFC 5849 allows in an encoded string: unreserved
      bytes, and '%' followed by two upper-case hex digits. The client's
      encoder also never writes "%7E". */
  predicate WellEscaped(r: Bytes)
  {
    && (forall i :: 0 <= i < |r| ==> IsUnreserved(r[i]) || r[i] == '%')
    && (forall i :: 0 <= i < |r| && r[i] == '%' ==>
          i + 2 < |r| && IsUpperHex(r[i + 1]) && IsUpperHex(r[i + 2])
          && !(r[i + 1] == '7' && r[i + 2] == 'E'))
  }

  /** rawurldecode, strict about malformed escapes. */
  function PercentDecode(s: Bytes): Option<Bytes>
    decreases |s|
  {
    if s == [] then Some([])
    else if s[0] == '%' then
      if |s| >= 3 && IsHexDigit(s[1]) && IsHexDigit(s[2]) then
        match PercentDecode(s[3..])
        case Some(t) => Some([(HexValue(s[1]) * 16 + HexValue(s[2])) as char] + t)
        case None => None
      else None
    else
      match PercentDecode(s[1..])
      case Some(t) => Some([s[0]] + t)
      case None => None
  }

  // ---------------------------------------------------------------------
  // ReplaceAll over concatenations

  /** Bytes that cannot start the pattern pass through unchanged. */
  lemma {:induction false} ReplaceSkip(s: Bytes, t: Bytes, pat: Bytes, rep: Bytes)
    requires |pat| > 0
    requires forall i :: 0 <= i < |s| ==> s[i] != pat[0]
    ensures ReplaceAll(s + t, pat, rep) == s + ReplaceAll(t, pat, rep)
  {
    if s != [] {
      var st := s + t;
      assert st[0] == s[0];
      assert st[1..] == s[1..] + t;
      if |pat| <= |st| {
        assert st[..|pat|][0] == s[0];
        assert st[..|pat|] != pat;
      }
      assert ReplaceAll(st, pat, rep) == [s[0]] + ReplaceAll(s[1..] + t, pat, rep);
      ReplaceSkip(s[1..], t, pat, rep);
      assert s == [s[0]] + s[1..];
      assert [s[0]] + (s[1..] + ReplaceAll(t, pat, rep)) == s + ReplaceAll(t, pat, rep);
    } else {
      assert s + t == t;
    }
  }

  /** Replacing a single byte distributes over concatenation. */
  lemma {:induction false} ReplaceByteAppend(a: Bytes, b: Bytes, p: Byte, rep: Bytes)
    ensures ReplaceAll(a + b, [p], rep) == ReplaceAll(a, [p], rep) + ReplaceAll(b, [p], rep)
  {
    if a != [] {
      var ab := a + b;
      assert ab[0] == a[0] && ab[1..] == a[1..] + b;
      assert ab[..1] == [a[0]] && a[..1] == [a[0]];
      assert ab[1..] == ab[|[p]|..] && a[1..] == a[|[p]|..];
      var head := if a[0] == p then rep else [a[0]];
      assert ReplaceAll(ab, [p], rep) == head + ReplaceAll(a[1..] + b, [p], rep);
      assert ReplaceAll(a, [p], rep) == head + ReplaceAll(a[1..], [p], rep);
      ReplaceByteAppend(a[1..], b, p, rep);
    } else {
      assert a + b == b;
    }
  }

  lemma EscapeIsNotTilde(b: Byte)
    requires !IsUnreserved(b)
    ensures Escape(b) != "%7E"
    ensures Escape(b)[1] != '%' && Escape(b)[2] != '%'
  {
  }

  /** The "%7E" replacement leaves the escape of any other byte alone. */
  lemma TildeSkipsEscape(b: Byte, t: Bytes)
    requires !IsUnreserved(b)
    ensures ReplaceAll(Escape(b) + t, "%7E", "~") == Escape(b) + ReplaceAll(t, "%7E", "~")
  {
    var e := Escape(b);
    var s := e + t;
    EscapeIsNotTilde(b);
    assert s[..3] == e;
    assert s[1..] == e[1..] + t;
    ReplaceSkip(e[1..], t, "%7E", "~");
    assert e == [e[0]] + e[1..];
  }

  lemma TildeOfEscapedTilde(t: Bytes)
    ensures ReplaceAll(Escape('~') + t, "%7E", "~") == "~" + ReplaceAll(t, "%7E", "~")
  {
    var s := Escape('~') + t;
    assert Escape('~') == "%7E";
    assert s[..3] == "%7E" && s[3..] == t;
  }

  /** One encoded byte followed by anything: the "%7E" pass leaves it be. */
  lemma TildeAfterByte(c: Byte, t: Bytes)
    ensures ReplaceAll(RawByte(c) + t, "%7E", "~") == RawByte(c) + ReplaceAll(t, "%7E", "~")
  {
    if IsUnreserved(c) {
      ReplaceSkip([c], t, "%7E", "~");
    } else {
      TildeSkipsEscape(c, t);
    }
  }

  lemma {:induction false} TildeAfterRaw(s: Bytes, t: Bytes)
    ensures ReplaceAll(RawUrlEncode(s) + t, "%7E", "~") == RawUrlEncode(s) + ReplaceAll(t, "%7E", "~")
    decreases |s|
  {
    if s != [] {
      var x := RawByte(s[0]);
      var tail := RawUrlEncode(s[1..]);
      var rt := ReplaceAll(t, "%7E", "~");
      assert RawUrlEncode(s) == x + tail;
      assert RawUrlEncode(s) + t == x + (tail + t);
      TildeAfterByte(s[0], tail + t);
      TildeAfterRaw(s[1..], t);
      assert x + (tail + rt) == (x + tail) + rt;
    } else {
      assert RawUrlEncode(s) + t == t;
    }
  }

  lemma {:induction false} RawUrlEncodeAppend(a: Bytes, b: Bytes)
    ensures RawUrlEncode(a + b) == RawUrlEncode(a) + RawUrlEncode(b)
  {
    if a != [] {
      assert (a + b)[0] == a[0] && (a + b)[1..] == a[1..] + b;
      assert RawUrlEncode(a + b) == RawByte(a[0]) + RawUrlEncode(a[1..] + b);
      RawUrlEncodeAppend(a[1..], b);
      assert RawByte(a[0]) + (RawUrlEncode(a[1..]) + RawUrlEncode(b)) == RawUrlEncode(a) + RawUrlEncode(b);
    } else {
      assert a + b == b;
    }
  }

  // ---------------------------------------------------------------------
  // What the client's encoder produces

  /** Byte by byte: an unreserved byte stands for itself, any other byte
      becomes "%XY"; encoding distributes over concatenation. */
  lemma EncodeBytewise(a: Bytes, b: Bytes, c: Byte)
    ensures Encode(a + b) == Encode(a) + Encode(b)
    ensures Encode([c]) == if IsUnreserved(c) then [c] else Escape(c)
  {
    EncodeIsRawUrlEncode(a + b);
    EncodeIsRawUrlEncode(a);
    EncodeIsRawUrlEncode(b);
    EncodeIsRawUrlEncode([c]);
    RawUrlEncodeAppend(a, b);
    assert RawUrlEncode([c]) == RawByte(c) + RawUrlEncode([]);
  }

  /** Space gives "%20", never '+'. */
  lemma EncodeSpace()
    ensures Encode(" ") == "%20"
  {
    EncodeBytewise([], [], ' ');
  }

  lemma WellEscapedAppend(x: Bytes, y: Bytes)
    requires WellEscaped(x) && WellEscaped(y)
    ensures WellEscaped(x + y)
  {
    var r := x + y;
    forall i | 0 <= i < |r| && r[i] == '%'
      ensures i + 2 < |r| && IsUpperHex(r[i + 1]) && IsUpperHex(r[i + 2])
              && !(r[i + 1] == '7' && r[i + 2] == 'E')
    {
      if i >= |x| {
        assert r[i] == y[i - |x|];
        assert r[i + 1] == y[i - |x| + 1] && r[i + 2] == y[i - |x| + 2];
      } else {
        assert r[i] == x[i];
        assert r[i + 1] == x[i + 1] && r[i + 2] == x[i + 2];
      }
    }
    forall i | 0 <= i < |r|
      ensures IsUnreserved(r[i]) || r[i] == '%'
    {
      if i >= |x| {
        assert r[i] == y[i - |x|];
      } else {
        assert r[i] == x[i];
      }
    }
  }

  lemma {:induction false} RawUrlEncodeWellEscaped(s: Bytes)
    ensures WellEscaped(RawUrlEncode(s))
    decreases |s|
  {
    if s != [] {
      var c := s[0];
      if !IsUnreserved(c) {
        EscapeIsNotTilde(c);
        assert WellEscaped(Escape(c));
      }
      RawUrlEncodeWellEscaped(s[1..]);
      WellEscapedAppend(RawByte(c), RawUrlEncode(s[1..]));
    }
  }

  /** The encoder's output holds only unreserved bytes and upper-case
      escapes, so it never holds '+', a space, or "%7E". */
  lemma EncodeWellEscaped(s: Bytes)
    ensures WellEscaped(Encode(s))
    ensures forall i :: 0 <= i < |Encode(s)| ==> Encode(s)[i] != '+' && Encode(s)[i] != ' '
  {
    EncodeIsRawUrlEncode(s);
    RawUrlEncodeWellEscaped(s);
  }

  lemma {:induction false} RawUrlEncodeLength(s: Bytes)
    ensures |RawUrlEncode(s)| >= |s|
    ensures |RawUrlEncode(s)| == |s| <==> forall i :: 0 <= i < |s| ==> IsUnreserved(s[i])
    ensures (forall i :: 0 <= i < |s| ==> IsUnreserved(s[i])) ==> RawUrlEncode(s) == s
    decreases |s|
  {
    if s != [] {
      RawUrlEncodeLength(s[1..]);
      assert s == [s[0]] + s[1..];
      if forall i :: 0 <= i < |s| ==> IsUnreserved(s[i]) {
        assert forall i :: 0 <= i < |s[1..]| ==> IsUnreserved(s[1..][i]) by {
          forall i | 0 <= i < |s[1..]|
            ensures IsUnreserved(s[1..][i])
          {
            assert s[1..][i] == s[i + 1];
          }
        }
      }
      if IsUnreserved(s[0]) && forall i :: 0 <= i < |s[1..]| ==> IsUnreserved(s[1..][i]) {
        forall i | 0 <= i < |s|
          ensures IsUnreserved(s[i])
        {
          if i > 0 { assert s[i] == s[1..][i - 1]; }
        }
      }
    }
  }

  /** A string comes out unchanged exactly when all of its bytes are
      unreserved. */
  lemma EncodeIdentityIff(s: Bytes)
    ensures Encode(s) == s <==> forall i :: 0 <= i < |s| ==> IsUnreserved(s[i])
  {
    EncodeIsRawUrlEncode(s);
    RawUrlEncodeLength(s);
  }

  lemma {:induction false} DecodeRawUrlEncode(s: Bytes)
    ensures PercentDecode(RawUrlEncode(s)) == Some(s)
    decreases |s|
  {
    if s != [] {
      var c := s[0];
      var rest := RawUrlEncode(s[1..]);
      var e := RawByte(c) + rest;
      DecodeRawUrlEncode(s[1..]);
      if IsUnreserved(c) {
        assert e[0] == c && e[1..] == rest;
      } else {
        assert e[0] == '%' && e[1] == HexDigit(c as int / 16) && e[2] == HexDigit(c as int % 16);
        assert e[3..] == rest;
        HexRoundTrip(c as int / 16);
        HexRoundTrip(c as int % 16);
        assert (HexValue(e[1]) * 16 + HexValue(e[2])) as char == c;
      }
      assert s == [c] + s[1..];
    }
  }

  /** Decoding undoes the client's encoder, so it loses nothing. */
  lemma DecodeEncode(s: Bytes)
    ensures PercentDecode(Encode(s)) == Some(s)
  {
    EncodeIsRawUrlEncode(s);
    DecodeRawUrlEncode(s);
  }

  lemma EncodeInjective(a: Bytes, b: Bytes)
    requires Encode(a) == Encode(b)
    ensures a == b
  {
    DecodeEncode(a);
    DecodeEncode(b);
  }
}

=== FILE: php_array.dfy ===
/** A PHP array with string keys, as the ordered list of its entries.
    PHP keeps one entry per key, so the lists the model builds carry
    `UniqueKeys`; two arrays hold the same content when every key reads
    the same (`SameEntries`), whatever their order. */
module PhpArray {
  import opened Wrappers
  import opened Bytes

  type Pairs<V> = seq<(Bytes, V)>

  predicate UniqueKeys<V>(a: Pairs<V>)
  {
    forall i, j :: 0 <= i < j < |a| ==> a[i].0 != a[j].0
  }

  /** `$a[$k]`, with None where isset() is false. */
  function Get<V>(a: Pairs<V>, k: Bytes): (r: Option<V>)
    ensures r.Some? ==> (k, r.value) in a
    ensures r.None? <==> forall i :: 0 <= i < |a| ==> a[i].0 != k
  {
    if a == [] then None
    else if a[0].0 == k then Some(a[0].1)
    else
      var r := Get(a[1..], k);
      assert r.None? ==> forall i :: 0 <= i < |a| ==> a[i].0 != k by {
        if r.None? {
          forall i | 1 <= i < |a|
            ensures a[i].0 != k
          {
            assert a[i] == a[1..][i - 1];
          }
        }
      }
      r
  }

  predicate HasKey<V>(a: Pairs<V>, k: Bytes)
  {
    Get(a, k).Some?
  }

  ghost predicate SameEntries<V>(a: Pairs<V>, b: Pairs<V>)
  {
    forall k :: Get(a, k) == Get(b, k)
  }

  /** In an array with one entry per key, every entry is what its key reads. */
  lemma {:induction false} GetEntry<V>(a: Pairs<V>, i: nat)
    requires UniqueKeys(a) && i < |a|
    ensures Get(a, a[i].0) == Some(a[i].1)
  {
    if i > 0 {
      GetEntry(a[1..], i - 1);
    }
  }

  lemma GetMember<V>(a: Pairs<V>, k: Bytes, v: V)
    requires UniqueKeys(a) && (k, v) in a
    ensures Get(a, k) == Some(v)
  {
    var i :| 0 <= i < |a| && a[i] == (k, v);
    GetEntry(a, i);
  }

  /** Two arrays with one entry per key and the same entries, counted with
      multiplicity, read the same under every key. */
  lemma PermutationSameEntries<V>(a: Pairs<V>, b: Pairs<V>)
    requires UniqueKeys(a) && UniqueKeys(b) && multiset(a) == multiset(b)
    ensures SameEntries(a, b)
  {
    forall k
      ensures Get(a, k) == Get(b, k)
    {
      var ga, gb := Get(a, k), Get(b, k);
      if ga.Some? {
        assert (k, ga.value) in multiset(b);
        GetMember(b, k, ga.value);
      }
      if gb.Some? {
        assert (k, gb.value) in multiset(a);
        GetMember(a, k, gb.value);
      }
    }
  }

  /** Prepending an entry whose key the rest lacks keeps the keys unique. */
  lemma ConsUnique<V>(p: (Bytes, V), t: Pairs<V>)
    requires UniqueKeys(t) && !HasKey(t, p.0)
    ensures UniqueKeys([p] + t)
  {
    var r := [p] + t;
    forall i, j | 0 <= i < j < |r|
      ensures r[i].0 != r[j].0
    {
      if i > 0 {
        assert r[i] == t[i - 1] && r[j] == t[j - 1];
      } else {
        assert r[j] == t[j - 1];
      }
    }
  }

  /** `$a[$k] = $v`: an existing key keeps its place, a new key goes last. */
  function Put<V>(a: Pairs<V>, k: Bytes, v: V): (r: Pairs<V>)
    ensures Get(r, k) == Some(v)
    ensures forall k' :: k' != k ==> Get(r, k') == Get(a, k')
    ensures HasKey(a, k) ==> |r| == |a| && forall i :: 0 <= i < |a| ==> r[i].0 == a[i].0
    ensures !HasKey(a, k) ==> r == a + [(k, v)]
  {
    if a == [] then [(k, v)]
    else if a[0].0 == k then [(k, v)] + a[1..]
    else [a[0]] + Put(a[1..], k, v)
  }

  lemma {:induction false} PutUnique<V>(a: Pairs<V>, k: Bytes, v: V)
    requires UniqueKeys(a)
    ensures UniqueKeys(Put(a, k, v))
  {
    if a == [] {
    } else if a[0].0 == k {
      ConsUnique((k, v), a[1..]);
    } else {
      var t := Put(a[1..], k, v);
      PutUnique(a[1..], k, v);
      assert Get(a[1..], a[0].0).None?;
      assert Get(t, a[0].0).None?;
      ConsUnique(a[0], t);
    }
  }

  /** Reading after an assignment: the assigned key gives the new value,
      every other key what it gave before. */
  lemma PutReads<V>(a: Pairs<V>, key: Bytes, v: V, k: Bytes)
    ensures Get(Put(a, key, v), k) == if k == key then Some(v) else Get(a, k)
  {
  }

  /** Appending an entry under a key not yet present keeps the keys distinct. */
  lemma AppendUnique<V>(a: Pairs<V>, k: Bytes, v: V)
    requires UniqueKeys(a) && !HasKey(a, k)
    ensures UniqueKeys(a + [(k, v)])
  {
    PutUnique(a, k, v);
  }

  /** `unset($a[$k])`: the key is gone and every other key reads as before. */
  function Remove<V>(a: Pairs<V>, k: Bytes): (r: Pairs<V>)
    ensures Get(r, k) == None
    ensures forall k' :: k' != k ==> Get(r, k') == Get(a, k')
    ensures forall i :: 0 <= i < |r| ==> r[i] in a
    ensures !HasKey(a, k) ==> r == a
  {
    if a == [] then [] else if a[0].0 == k then Remove(a[1..], k) else [a[0]] + Remove(a[1..], k)
  }

  lemma {:induction false} RemoveUnique<V>(a: Pairs<V>, k: Bytes)
    requires UniqueKeys(a)
    ensures UniqueKeys(Remove(a, k))
  {
    if a != [] {
      var t := Remove(a[1..], k);
      RemoveUnique(a[1..], k);
      if a[0].0 != k {
        assert Get(a[1..], a[0].0).None?;
        assert Get(t, a[0].0).None?;
        ConsUnique(a[0], t);
      }
    }
  }

  /** Appending an entry under a new key changes what no other key reads. */
  lemma {:induction false} GetAppend<V>(a: Pairs<V>, k: Bytes, v: V, k': Bytes)
    requires k' != k
    ensures Get(a + [(k, v)], k') == Get(a, k')
  {
    if a != [] {
      assert (a + [(k, v)])[1..] == a[1..] + [(k, v)];
      GetAppend(a[1..], k, v, k');
    }
  }

  lemma RemoveReads<V>(a: Pairs<V>, key: Bytes, k: Bytes)
    ensures Get(Remove(a, key), k) == if k == key then None else Get(a, k)
  {
  }
}

=== FILE: query_string.dfy ===
/** How TwitterOAuthParams::serialize turns an argument array into a query
    string: http_build_query (form encoding, '&' between entries), then
    '+' replaced by "%20" and "%7E" by "~". The lemmas show the result is
    each name and value percent-encoded in the RFC 3986 form that section
    3.4.1.3.2 of RFC 5849 describes, in array order (the sort happens
    before, on the raw keys), and that it reads back to the array it came
    from. */
module QueryString {
  import opened Wrappers
  import opened Bytes
  import opened PercentEncoding
  import opened PhpArray

  function FormPair(p: (Bytes, Bytes)): Bytes
  {
    FormUrlEncode(p.0) + "=" + FormUrlEncode(p.1)
  }

  /** http_build_query over string values with the default separator. */
  function HttpBuildQuery(args: Pairs<Bytes>): Bytes
  {
    if args == [] then []
    else if |args| == 1 then FormPair(args[0])
    else FormPair(args[0]) + "&" + HttpBuildQuery(args[1..])
  }

  /** str_replace(array('+', '%7E'), array('%20', '~'), $s): the two
      replacements run one after the other over the whole string. */
  function RepairForm(s: Bytes): Bytes
  {
    ReplaceAll(ReplaceAll(s, "+", "%20"), "%7E", "~")
  }

  /** TwitterOAuthParams::serialize, over the array's current order. It
      is the RFC 3986 query of the pairs, and the query parser reads it
      back to them. */
  function Serialize(args: Pairs<Bytes>): Bytes
  {
    RepairForm(HttpBuildQuery(args))
  }

  /** The query parser reads serialize's output back to the pairs. */
  lemma SerializeRoundTrip(args: Pairs<Bytes>)
    ensures ParseQuery(Serialize(args)) == Some(args)
  {
    SerializeIsCanonical(args);
    ParseCanonicalQuery(args);
  }

  function EncodedPair(p: (Bytes, Bytes)): Bytes
  {
    Encode(p.0) + "=" + Encode(p.1)
  }

  /** Each entry as `enc(key)=enc(value)`, joined by '&', in array order. */
  function CanonicalQuery(args: Pairs<Bytes>): Bytes
  {
    if args == [] then []
    else if |args| == 1 then EncodedPair(args[0])
    else EncodedPair(args[0]) + "&" + CanonicalQuery(args[1..])
  }

  // ---------------------------------------------------------------------
  // serialize == the RFC 3986 query

  lemma RepairFormSkip(x: Bytes, t: Bytes)
    requires forall i :: 0 <= i < |x| ==> x[i] != '+' && x[i] != '%'
    ensures RepairForm(x + t) == x + RepairForm(t)
  {
    ReplaceSkip(x, t, "+", "%20");
    ReplaceSkip(x, ReplaceAll(t, "+", "%20"), "%7E", "~");
  }

  lemma RepairFormByte(b: Byte, t: Bytes)
    ensures RepairForm(FormByte(b) + t) == RawByte(b) + RepairForm(t)
  {
    var plusFixed := ReplaceAll(t, "+", "%20");
    if b == ' ' {
      var s := "+" + t;
      assert s[..1] == "+" && s[1..] == t;
      assert ReplaceAll(s, "+", "%20") == "%20" + plusFixed;
      assert Escape(' ') == "%20";
      TildeSkipsEscape(' ', plusFixed);
    } else if IsAlnum(b) || b == '-' || b == '.' || b == '_' {
      RepairFormSkip([b], t);
    } else {
      ReplaceSkip(Escape(b), t, "+", "%20");
      if b == '~' {
        TildeOfEscapedTilde(plusFixed);
      } else {
        TildeSkipsEscape(b, plusFixed);
      }
    }
  }

  lemma {:induction false} RepairFormEncode(s: Bytes, t: Bytes)
    ensures RepairForm(FormUrlEncode(s) + t) == RawUrlEncode(s) + RepairForm(t)
    decreases |s|
  {
    if s != [] {
      var tail := FormUrlEncode(s[1..]);
      assert FormUrlEncode(s) + t == FormByte(s[0]) + (tail + t);
      RepairFormByte(s[0], tail + t);
      RepairFormEncode(s[1..], t);
      assert RawByte(s[0]) + (RawUrlEncode(s[1..]) + RepairForm(t)) == RawUrlEncode(s) + RepairForm(t);
    } else {
      assert FormUrlEncode(s) + t == t;
    }
  }

  lemma RepairFormPair(p: (Bytes, Bytes), t: Bytes)
    ensures RepairForm(FormPair(p) + t) == EncodedPair(p) + RepairForm(t)
  {
    var k, v := FormUrlEncode(p.0), FormUrlEncode(p.1);
    var rk, rv := RawUrlEncode(p.0), RawUrlEncode(p.1);
    calc {
      RepairForm(FormPair(p) + t);
      { assert FormPair(p) + t == k + ("=" + (v + t)); }
      RepairForm(k + ("=" + (v + t)));
      { RepairFormEncode(p.0, "=" + (v + t)); }
      rk + RepairForm("=" + (v + t));
      { RepairFormSkip("=", v + t); }
      rk + ("=" + RepairForm(v + t));
      { RepairFormEncode(p.1, t); }
      rk + ("=" + (rv + RepairForm(t)));
      { EncodeIsRawUrlEncode(p.0); EncodeIsRawUrlEncode(p.1); }
      EncodedPair(p) + RepairForm(t);
    }
  }

  /** serialize reaches the RFC 3986 query by post-processing
      http_build_query: no '+' for space survives, no "%7E" either. */
  lemma {:induction false} SerializeIsCanonical(args: Pairs<Bytes>)
    ensures Serialize(args) == CanonicalQuery(args)
  {
    if args == [] {
    } else if |args| == 1 {
      RepairFormPair(args[0], []);
      assert FormPair(args[0]) + [] == FormPair(args[0]);
      assert EncodedPair(args[0]) + [] == EncodedPair(args[0]);
    } else {
      var rest := HttpBuildQuery(args[1..]);
      assert HttpBuildQuery(args) == FormPair(args[0]) + ("&" + rest);
      RepairFormPair(args[0], "&" + rest);
      RepairFormSkip("&", rest);
      SerializeIsCanonical(args[1..]);
    }
  }

  // ---------------------------------------------------------------------
  // Reading a query back

  /** Splits at the first `c`: the bytes before it and, when `c` occurs,
      the bytes after it. */
  function SplitAt(s: Bytes, c: Byte): (r: (Bytes, Option<Bytes>))
    ensures forall i :: 0 <= i < |r.0| ==> r.0[i] != c
    ensures r.1.None? ==> r.0 == s
    ensures r.1.Some? ==> s == r.0 + [c] + r.1.value
  {
    if s == [] then ([], None)
    else if s[0] == c then ([], Some(s[1..]))
    else
      var r := SplitAt(s[1..], c);
      ([s[0]] + r.0, r.1)
  }

  lemma {:induction false} SplitAtFirst(a: Bytes, c: Byte, t: Bytes)
    requires forall i :: 0 <= i < |a| ==> a[i] != c
    ensures SplitAt(a + [c] + t, c) == (a, Some(t))
  {
    if a != [] {
      assert (a + [c] + t)[1..] == a[1..] + [c] + t;
      SplitAtFirst(a[1..], c, t);
      assert a == [a[0]] + a[1..];
    } else {
      assert a + [c] + t == [c] + t;
    }
  }

  /** Splitting `a c b c t` at `c` twice, when `a` and `b` avoid `c`. */
  lemma SplitAtTwice(a: Bytes, b: Bytes, c: Byte, t: Bytes)
    requires forall i :: 0 <= i < |a| ==> a[i] != c
    requires forall i :: 0 <= i < |b| ==> b[i] != c
    ensures SplitAt(a + [c] + b + [c] + t, c) == (a, Some(b + [c] + t))
    ensures SplitAt(b + [c] + t, c) == (b, Some(t))
  {
    assert a + [c] + b + [c] + t == a + [c] + (b + [c] + t);
    SplitAtFirst(a, c, b + [c] + t);
    SplitAtFirst(b, c, t);
  }

  lemma {:induction false} SplitAtAbsent(a: Bytes, c: Byte)
    requires forall i :: 0 <= i < |a| ==> a[i] != c
    ensures SplitAt(a, c) == (a, None)
  {
    if a != [] {
      SplitAtAbsent(a[1..], c);
      assert a == [a[0]] + a[1..];
    }
  }

  /** The client's encoder never writes a byte outside the unreserved set
      other than '%'. */
  lemma EncodeAvoids(s: Bytes, c: Byte)
    requires !IsUnreserved(c) && c != '%'
    ensures forall i :: 0 <= i < |Encode(s)| ==> Encode(s)[i] != c
  {
    EncodeWellEscaped(s);
  }

  function ParsePair(item: Bytes): Option<(Bytes, Bytes)>
  {
    var kv := SplitAt(item, '=');
    if kv.1.None? then None
    else
      match (PercentDecode(kv.0), PercentDecode(kv.1.value))
      case (Some(k), Some(v)) => Some((k, v))
      case _ => None
  }

  /** Reads `k=v&k=v...`, decoding each key and value. */
  function ParseQueryItems(s: Bytes): Option<Pairs<Bytes>>
    decreases |s|
  {
    var split := SplitAt(s, '&');
    match ParsePair(split.0)
    case None => None
    case Some(p) =>
      if split.1.None? then Some([p])
      else
        match ParseQueryItems(split.1.value)
        case Some(rest) => Some([p] + rest)
        case None => None
  }

  function ParseQuery(s: Bytes): Option<Pairs<Bytes>>
  {
    if s == [] then Some([]) else ParseQueryItems(s)
  }

  lemma EncodedPairParses(p: (Bytes, Bytes))
    ensures forall i :: 0 <= i < |EncodedPair(p)| ==> EncodedPair(p)[i] != '&'
    ensures ParsePair(EncodedPair(p)) == Some(p)
  {
    var ek, ev := Encode(p.0), Encode(p.1);
    EncodeAvoids(p.0, '&');
    EncodeAvoids(p.1, '&');
    EncodeAvoids(p.0, '=');
    var e := EncodedPair(p);
    assert e == ek + ['='] + ev;
    forall i | 0 <= i < |e|
      ensures e[i] != '&'
    {
      if i < |ek| { assert e[i] == ek[i]; }
      else if i > |ek| { assert e[i] == ev[i - |ek| - 1]; }
    }
    SplitAtFirst(ek, '=', ev);
    DecodeEncode(p.0);
    DecodeEncode(p.1);
  }

  /** The query reads back to the array it was built from. */
  lemma {:induction false} ParseCanonicalQuery(args: Pairs<Bytes>)
    ensures ParseQuery(CanonicalQuery(args)) == Some(args)
  {
    if args != [] {
      var e := EncodedPair(args[0]);
      EncodedPairParses(args[0]);
      if |args| == 1 {
        assert e != [] by { assert |e| >= 1 + |Encode(args[0].0)|; }
        SplitAtAbsent(e, '&');
        assert args == [args[0]];
      } else {
        var rest := CanonicalQuery(args[1..]);
        assert CanonicalQuery(args) == e + ['&'] + rest;
        SplitAtFirst(e, '&', rest);
        ParseCanonicalQuery(args[1..]);
        assert rest != [] by {
          var e1 := EncodedPair(args[1]);
          assert |e1| > 0;
          assert |args[1..]| == 1 ==> rest == e1;
          assert |args[1..]| > 1 ==> |rest| > |e1|;
        }
        assert args == [args[0]] + args[1..];
      }
    }
  }
}

=== FILE: wrappers.dfy ===
/** The two shapes the model uses where PHP has null and thrown exceptions. */
module Wrappers {

  /** A value PHP would represent as "set or null". */
  datatype Option<+T> = None | Some(value: T) {

    /** The carried value, or `default` for None. */
    function GetOr(default: T): T
    {
      match this
      case Some(v) => v
      case None => default
    }
  }

  /** The outcome of an operation that may throw: its value or what it threw. */
  datatype Result<+T, +E> = Ok(value: T) | Err(error: E)
}
